=== FILE: README.md ===
# Responsive image generation for the dvip directories

Two scripts prepare the images of a small static site:

- `generate-image.py` resizes the source image of each directory into a set of WebP variants.
  - Five directories are configured: `dvip1` … `dvip4` and `dvipicon`.
  - Regular images get up to ten widths from 180 to 2560 and are never enlarged.
  - The icon directory is planned all ten icon sizes from 16 to 512; a run writes them all unless an attempt raises. The file names read `NxN`, but each height follows the source's aspect ratio (`int(h*size/w)`), so only a square source gives square icons.
  - It records every variant (size, width, height, file name, path) in a manifest.
- `generate-imagehtml.py` writes an `<img>` element with a `srcset` list for each directory.
  - The list refers to those resized files by their naming convention.

The Dafny project models the decisions both scripts make: which sizes, heights, names, paths, URLs and attributes.

- Pixels, the disk and the clock are not modelled.
- The disk is an input: which paths exist, the pixel size of each image, and where image processing raises.

Modules:

- `Text` (`text.dfy`): the Python and `pathlib` string operations the scripts rely on. These are decimal rendering in f-strings, `', '.join`, the line layout of a multi-line f-string, `str.split('/')[-1]`, `Path / name`, `.name` and `.stem`.
  - The scripts never parse or split their own output. The model adds inverses for the round-trip lemmas: `ParseDecimal` for the digits, `SplitList` (`str.split(', ')`) for the joined list, and `SplitLines` for the element's lines.
- `Resize` (`resize.dfy`): `generate_responsive_images`.
  - A reference plan (`Plan`) lists the records a run makes when nothing fails.
  - `Generated` is what the function returns, given a missing source, a zero width, or an exception at the k-th attempt. An attempt also raises when its record would be 0 pixels high: the library rejects a resize to a zero height.
  - `ResizeEach` is the loop itself, proved to return `Generated`.
- `ResizeMain` (`resize_main.dfy`): `main` of `generate-image.py`. It covers the directory table, source selection, the icon choice, the copy decision and the manifest's `generated` map.
- `ImgHtml` (`img_html.dfy`): `generate_img_html`. It covers the candidate list, the joined `srcset` text, every attribute, and the element's line layout.
- `HtmlMain` (`html_main.dfy`): `main` of `generate-imagehtml.py`. It covers the directory list, skipping empty directories, the first file's stem, the width list and is_icon choice, and the output file names.
- `Consistency` (`consistency.dfy`): how the two scripts agree. Every resized URL in the markup names a file of the resizer's plan (the files a run writes when nothing raises) for the same directory and stem, exactly when the resizer attempts that width. When an attempt raises, the run writes only the files before it (`Resize.GeneratedRecords`), so a URL for an attempted width can still name a missing file.

The `elif` that checks for the source inside the directory (generate-image.py:107) tests a `Path` object. A `Path` is always true, so the "Source not found" branch can never run. The model keeps this as written (`PathIsTrue`). As a result, every configured directory is processed, and a missing source gives an empty record list in the manifest rather than no entry.

## Model

| member | source | states |
|---|---|---|
| Text.NatToString | generate-imagehtml.py:16 | a size renders as a non-empty string of decimal digits, with no leading zero unless the size is 0 |
| Text.ParseNatToString | generate-image.py:54-56 | reading the rendered digits back gives the size: the number in a file name is recoverable |
| Text.NatToStringInjective | generate-image.py:54-56 | two different sizes never render to the same digits |
| Text.SplitJoin | generate-imagehtml.py:20 | joining comma-free parts with ", " and splitting at ", " gives back exactly the parts |
| Text.JoinSplit | generate-imagehtml.py:20 | splitting any text at ", " and joining the parts with ", " gives back the text |
| Text.SplitJoinLines | generate-imagehtml.py:18-27 | the lines of a multi-line template, joined with newlines, are recovered exactly when none of them holds a newline |
| Text.LastComponent | generate-image.py:107 | `split('/')[-1]` is a suffix with no separator, and is the whole string when the string has no separator |
| Text.LastComponentOfJoin | generate-image.py:109 | the last component of `dir/name` is `name` |
| Text.LastIndexOf | generate-image.py:52 | `rfind`: the last occurrence, with none after it, or -1 exactly when absent |
| Text.NameWithExtension | generate-imagehtml.py:70 | in `base` followed by a one-dot extension, the last dot is where the extension starts |
| Text.StemWithExtension | generate-image.py:52 | the stem of `dir/base.ext` is `base` for any directory and single suffix |
| Text.StemOfName | generate-image.py:52 | `.stem` is a prefix of the last component, so it holds no separator; a name without a dot is its own stem |
| Text.StemOfWebp | generate-imagehtml.py:70 | the stem of `dir/base.webp` is `base` |
| Resize.SizesFor | generate-image.py:28 | the icon size list is used exactly in icon mode and the regular list exactly otherwise; both have ten entries |
| Resize.SizeListsIncreasing | generate-image.py:13-16 | both configured size lists are strictly increasing and positive |
| Resize.Height | generate-image.py:45-46 | the new height is the largest height not exceeding the proportional height `h*size/w` |
| Resize.FileName | generate-image.py:53-56 | a file name starts with the stem and adds a suffix; it holds no separator when the stem holds none |
| Resize.OutputPathName | generate-image.py:58 | the output path's last component is the file name, whatever the output directory |
| Resize.Attempted | generate-image.py:40-42 | never more sizes are attempted than are listed |
| Resize.Generated | generate-image.py:24-82 | the returned list never has more records than the mode's size list has sizes |
| Resize.GenerateResponsiveImages | generate-image.py:21-82 | returns the empty list for a missing source, otherwise exactly the reference result `Generated` for the mode's size list |
| Resize.ResizeEach | generate-image.py:32-82 | the loop returns [] for a zero width, otherwise the planned records for the sizes cut off at the first attempt that raises, either a library failure or a record 0 pixels high |
| Resize.ResizeStep | generate-image.py:40-82 | one pass of the loop: a skipped size keeps the records, a raising attempt ends the run with exactly the truncated plan, and any other attempt appends its record |
| Resize.AttemptedSnoc | generate-image.py:40-42 | one more size extends the attempted list by that size exactly when it is not skipped |
| Resize.TruncateAtFailure | generate-image.py:45-82 | an exception while making a record, a zero-height resize included, leaves exactly the records made before it |
| Resize.TruncateAt | generate-image.py:79-82 | when no record before position `g` raises and the one at `g` does (or the plan ends there), the returned list is exactly the first `g` records |
| Resize.TruncateStops | generate-image.py:79-82 | the returned list is a prefix of the plan in which no attempt raises, and it stops only at an attempt that raises |
| Resize.TruncateWithoutFlat | generate-image.py:79-82 | with no zero-height record, the whole plan is returned when nothing fails and exactly the first `k` records when attempt `k` fails |
| Resize.AttemptedPrefix | generate-image.py:40-42 | the sizes attempted over a prefix of the list are a prefix of those attempted over the whole list |
| Resize.AttemptedIsSubsequence | generate-image.py:40-42 | the attempted sizes are an order-preserving subsequence that takes a position exactly when it is not skipped |
| Resize.AttemptedMembers | generate-image.py:40-42 | a size is attempted if and only if it is listed and is an icon size or at most the source width; strict order is kept |
| Resize.AttemptedAll | generate-image.py:40-42 | when no size is skipped, every size is attempted in order |
| Resize.PlanSizes | generate-image.py:40-75 | the sizes of the records are the attempted sizes of the mode's list |
| Resize.PlanSelectsSizes | generate-image.py:40-42 | a record exists for a size if and only if the size is in the mode's list and (icon mode or not wider than the source); records are in increasing size |
| Resize.PlanIconComplete | generate-image.py:41 | an icon gets all ten icon sizes, in order, whatever its width |
| Resize.PlanRecords | generate-image.py:45-75 | each record has width equal to size, the floor of the proportional height, and the naming scheme's file name and path |
| Resize.PlanNoUpscale | generate-image.py:41-42 | no record of a regular image is wider or taller than the source |
| Resize.PlanSquareIcons | generate-image.py:45-46 | a square icon source yields square variants under exact division of `h*size/w` |
| Resize.FileNameInjective | generate-image.py:53-56 | distinct sizes get distinct file names |
| Resize.PathJoinInjective | generate-image.py:58 | joining distinct names onto one directory gives distinct paths |
| Resize.PlanPathsDistinct | generate-image.py:52-58 | no two records of a run share a file name or an output path |
| Resize.GeneratedRecords | generate-image.py:24-82 | the returned list is empty for a missing source and otherwise a prefix of the plan that stops only at a library failure or a record 0 pixels high; every returned record is at least one pixel high; without a flat record, the whole plan when nothing fails and exactly the first k records when attempt k raises |
| Resize.HeightMono | generate-image.py:45-46 | a larger size never gets a lower height |
| Resize.PlanHeightsGrow | generate-image.py:40-46 | the first planned record is the least high |
| Resize.FlatOnlyFirst | generate-image.py:40-82 | only the first attempt can be rejected for a zero height: if it is not, no record is 0 pixels high, and if it is, the run returns no record |
| Resize.FlatExample | generate-image.py:45-82 | a 2000x5 regular source would give a 180x0 first record, so the run returns no record at all |
| Resize.LandscapeExample | generate-image.py:40-56 | a 1920x1080 source yields nine widths up to 1920, with 640x360, 1280x720, 1920x1080 and the name `stem-640w.webp` |
| ResizeMain.SelectSource | generate-image.py:104-112 | a source is always chosen; the root file when it exists, otherwise a path with the same file name |
| ResizeMain.Load | generate-image.py:33-38 | the loaded image has the source's stem and, when the library opens it, its pixel size; a path it cannot open fails before any record |
| ResizeMain.CopyIsIdempotent | generate-image.py:123 | once a copy sits in the directory, no later run copies again |
| ResizeMain.CopyServesLaterRuns | generate-image.py:105-109 | without the root file, the source is read from where the copy was put |
| ResizeMain.CopiedNameMatches | generate-image.py:123-125 | a copy keeps the selected source's file name |
| ResizeMain.RunEntriesCoversAll | generate-image.py:101-128 | no directory entry is skipped: the loop equals the reference list that processes every entry, in order, from its selected source |
| ResizeMain.RunCoversDirectories | generate-image.py:91-97 | a run yields five results in table order, and only `dvipicon` is processed as an icon |
| ResizeMain.IconDirectoryIsLast | generate-image.py:115 | exactly the fifth directory of the table is the icon directory |
| ResizeMain.RunResults | generate-image.py:104-125 | per directory: the root file is preferred, otherwise `dir/file`; a missing source gives no records; the original is copied if and only if it exists at the root and not in the directory; records never upscale |
| ResizeMain.ConfiguredNames | generate-image.py:91-97 | every configured directory is a plain name and every source a single file name |
| ResizeMain.SelectedStem | generate-image.py:52 | whichever path is selected, the resized files are named after the configured base name |
| ResizeMain.ConfiguredSources | generate-image.py:91-97 | each configured source is a non-empty base name plus `.webp` |
| ResizeMain.RunStems | generate-image.py:52 | a run names the resized files `dvip1` … `dvip4` and `dvipicon512` |
| ResizeMain.ManifestLookup | generate-image.py:128 | the manifest has a key exactly for each processed directory; with distinct names each maps to that directory's records |
| ResizeMain.RunManifest | generate-image.py:128 | the manifest's `generated` map has exactly the five directories, each with its own run's records |
| ResizeMain.DirectoryNamesDistinct | generate-image.py:91-97 | the table's directory names are exactly `dvip1`, `dvip2`, `dvip3`, `dvip4` and `dvipicon`, in that order, and pairwise distinct |
| ImgHtml.ResizedCandidates | generate-imagehtml.py:14-16 | one candidate per width, in width order, naming that width's resized file and tagged with that width |
| ImgHtml.SrcsetCandidates | generate-imagehtml.py:14-35 | fails exactly for a regular image with no widths; otherwise one resized candidate per width in order, then for a regular image the original |
| ImgHtml.GenerateImgHtml | generate-imagehtml.py:9-48 | raises if and only if a regular image is given an empty width list |
| ImgHtml.SrcsetShape | generate-imagehtml.py:12-35 | icons get one candidate per width; regular images also get the original, tagged with the last width; the only failure is a regular image with no widths |
| ImgHtml.SrcsetRoundTrip | generate-imagehtml.py:20 | splitting the `srcset` attribute at ", " gives back every candidate's text in order, when directory and image name hold no comma |
| ImgHtml.SrcAndAlt | generate-imagehtml.py:18-41 | `src` is the original for an icon and the 640-wide resized file for a regular image; `alt` is the directory plus " icon" or " image" |
| ImgHtml.SrcIndependentOfWidths | generate-imagehtml.py:38 | a regular image's `src` does not depend on the width list |
| ImgHtml.RenderLines | generate-imagehtml.py:37-46 | the element's text reads back as ten lines: the opening line, then `src`, `srcset`, `sizes`, `alt`, `width`, `height`, `loading` and `class` with their values in template order, then `>` |
| HtmlMain.ProcessDirectory | generate-imagehtml.py:60-84 | a directory is skipped exactly when it has no `.webp` file; otherwise the output uses the first file's stem, icon mode exactly for `dvipicon`, a tag that is generated without error, and two distinct output files |
| HtmlMain.WidthsFor | generate-imagehtml.py:73-78 | the chosen width list is never empty |
| HtmlMain.RunOverSkips | generate-imagehtml.py:57-66 | the processed directories are exactly those with a `.webp` file, in list order |
| HtmlMain.WithWebpMembers | generate-imagehtml.py:64-66 | a directory is kept if and only if it is listed and holds a `.webp` file |
| HtmlMain.WithWebpAll | generate-imagehtml.py:64-66 | with a file in every directory nothing is skipped |
| HtmlMain.RunOverOutputs | generate-imagehtml.py:62-84 | each output uses its directory's first file's stem, the icon widths exactly for `dvipicon`, the tag built from these, and the two output file names |
| HtmlMain.RunOutputs | generate-imagehtml.py:55-144 | a run covers exactly the configured directories holding a `.webp` file, in order; each output has its first file's stem, icon mode exactly for `dvipicon`, the icon or image width list accordingly, the tag generated from these without error, and the snippet and demo file names of its directory |
| HtmlMain.FullListing | generate-imagehtml.py:55-66 | with every directory populated, all five are processed in order |
| HtmlMain.OutputFilesDistinct | generate-imagehtml.py:84 | distinct directories write distinct snippet and demo files, and no snippet file is a demo file |
| Consistency.UrlIsOutputPath | generate-imagehtml.py:16 | a resized URL is the resizer's output path for the same directory, stem and size, made absolute |
| Consistency.SameDirectories | generate-imagehtml.py:55 | both scripts process the same five directories and single out the same icon directory |
| Consistency.HtmlWidthsAreResizerSizes | generate-imagehtml.py:73-78 | every width the markup lists is in the resizer's size list for the same mode |
| Consistency.IconWidthsOmitSmallest | generate-imagehtml.py:74 | the icon markup lists every icon size except 16 and 32 |
| Consistency.LargestImageWidth | generate-imagehtml.py:77 | the largest width a regular image's markup refers to is 1536 |
| Consistency.PlanRecordUrl | generate-imagehtml.py:32 | each planned record is served at the resized URL for its own size |
| Consistency.ResizedUrlInPlan | generate-imagehtml.py:14-32 | the resized URL for a width names a planned file if and only if the resizer attempts that width |
| Consistency.SrcsetNamesPlannedFiles | generate-imagehtml.py:30-32 | every resized candidate names a planned file when the source is at least 1536 wide, or is an icon |
| Consistency.GeneratedUrl | generate-imagehtml.py:14-16 | when no attempt raises and no planned record is flat, the URL of every attempted width names a file the run returns |
| Consistency.SrcInPlan | generate-imagehtml.py:38 | a regular image's `src` names a planned file if and only if the source is at least 640 wide |

## Left out

- Pixel work: decoding, RGB conversion, Lanczos resampling and WebP encoding (quality 85, method 6) are not modelled. The image is its width, height and stem.
- Resize.Height: the model uses exact integer division `h*size/w`. The source computes a floating-point ratio, so for some sizes its result may be one pixel lower. Where the exact height is 1 the source may get 0 and raise, which the model does not follow.
- Resize.PlanSquareIcons: square variants are proved for the exact-division height only. Under the source's floating-point ratio a 49x49 source gives a 16x15 icon, one pixel short of square.
- Resize.Attempted: its own contract only bounds the length. Membership, order and the skip rule are stated by `Resize.AttemptedMembers` and `Resize.AttemptedIsSubsequence`.
- Resize.Generated: its own contract only bounds the length. The prefix and truncation behaviour is stated by `Resize.GeneratedRecords`.
- The disk: existence checks, `glob` and `Image.open` are inputs (`Disk`, `Listing`). Where processing raises is an input (`failAt`). It stands for any raise inside the `try` of generate-image.py:32-82, file-system errors included. For example, neither script creates `<dir>/resized`, so without that folder the first `save` raises (`failAt == Some(0)`). Only a raise for a zero height is derived from the size.
- The kind of exception, and the error message printed for it, are not modelled. Only the point where it stops the loop is.
- `shutil.copy2` is modelled as the decision to copy, and `CopyTarget` as where the copy lands. A run still checks each directory against the disk as given, not against its own copies.
- ResizeMain.CopyTarget: the disk is a set of file paths with no directories. The target assumes the configured directory exists; if it does not, `copy2` writes a file named after the directory instead.
- ResizeMain.CopyIsIdempotent: assumes the configured directory exists, as `CopyTarget` does.
- ResizeMain.CopyServesLaterRuns: assumes the configured directory exists, as `CopyTarget` does.
- ResizeMain.CopiedNameMatches: assumes the configured directory exists, as `CopyTarget` does; otherwise the copy is a file named after the directory.
- The manifest's `directories` list, its `timestamp` (a file's modification time) and the JSON encoding are left out. Only the `generated` map is modelled.
- The demo page template (generate-imagehtml.py:93-142) is left out. It embeds the element text unchanged.
- All console output is left out.
- `pathlib` normalisation is modelled only for relative directory names without separators, which is what the scripts use (`PathJoin`).
- optimize.js is not part of this model.

=== FILE: consistency.dfy ===
/** How the two scripts fit together: the URLs the HTML generator writes
    name the files of the resizer's plan, for the same directory and stem.
    The plan is what a run writes when nothing raises. */
module Consistency {
  import opened Wrappers
  import opened Text
  import Resize
  import ImgHtml
  import HtmlMain
  import ResizeMain

  /** A directory name that `Path` does not collapse. */
  predicate PlainDirectory(d: string) {
    d != "" && d != "."
  }

  /** A resized URL is the resizer's output path made absolute. */
  lemma UrlIsOutputPath(d: string, stem: string, w: nat, isIcon: bool)
    requires PlainDirectory(d)
    ensures ImgHtml.ResizedUrl(d, stem, w, isIcon) == "/" + Resize.OutputPath(d, Resize.FileName(stem, w, isIcon))
  {
    var fn := Resize.FileName(stem, w, isIcon);
    assert "/" + Resize.OutputPath(d, fn) == "/" + d + "/resized/" + fn;
    ResizedUrlOfName(d, stem, w, isIcon);
  }

  lemma ResizedUrlOfName(d: string, stem: string, w: nat, isIcon: bool)
    ensures ImgHtml.ResizedUrl(d, stem, w, isIcon) == "/" + d + "/resized/" + Resize.FileName(stem, w, isIcon)
  {
    var n := NatToString(w);
    if isIcon {
      assert Resize.FileName(stem, w, isIcon) == stem + "-" + n + ("x" + n) + ".webp";
    } else {
      assert Resize.FileName(stem, w, isIcon) == stem + "-" + n + "w" + ".webp";
    }
  }

  /** Both scripts process the same five directories and single out the
      same icon directory. */
  lemma SameDirectories()
    ensures HtmlMain.Directories == ResizeMain.DirsOfTable()
    ensures HtmlMain.IconDirectory == ResizeMain.IconDirectory
  {
    ResizeMain.DirectoryNamesDistinct();
  }

  /** Every width the HTML asks for is one the resizer knows. */
  lemma HtmlWidthsAreResizerSizes(isIcon: bool)
    ensures forall w :: w in HtmlMain.WidthsFor(isIcon) ==> w in Resize.SizesFor(isIcon)
  {
  }

  /** The icon markup leaves out the two smallest icon sizes. */
  lemma IconWidthsOmitSmallest()
    ensures forall w :: w in Resize.IconSizes ==> (w in HtmlMain.IconWidths <==> w > 32)
  {
  }

  /** The largest width a regular image's markup refers to. */
  lemma LargestImageWidth()
    ensures forall w :: w in HtmlMain.ImageWidths ==> w <= 1536
    ensures 1536 in HtmlMain.ImageWidths
  {
  }

  /** A record of the plan sits at the URL for its own size. */
  lemma PlanRecordUrl(img: Resize.Image, d: string, isIcon: bool, v: Resize.Variant)
    requires img.width > 0 && PlainDirectory(d)
    requires v in Resize.Plan(img, d, isIcon)
    ensures "/" + v.path == ImgHtml.ResizedUrl(d, img.stem, v.size, isIcon)
  {
    Resize.PlanRecords(img, d, isIcon);
    UrlIsOutputPath(d, img.stem, v.size, isIcon);
  }

  /** The resized URL for width `w` names a file of the resizer's plan
      exactly when the resizer attempts that width: always for an icon
      size, and for a regular size only when the source is at least that
      wide. */
  lemma ResizedUrlInPlan(img: Resize.Image, d: string, w: nat, isIcon: bool)
    requires img.width > 0 && PlainDirectory(d)
    requires w in Resize.SizesFor(isIcon)
    ensures (exists v :: v in Resize.Plan(img, d, isIcon) && "/" + v.path == ImgHtml.ResizedUrl(d, img.stem, w, isIcon))
            <==> (isIcon || w <= img.width)
  {
    if isIcon || w <= img.width {
      AttemptedUrlInPlan(img, d, w, isIcon);
    }
    if v :| v in Resize.Plan(img, d, isIcon) && "/" + v.path == ImgHtml.ResizedUrl(d, img.stem, w, isIcon) {
      PlannedUrlAttempted(img, d, w, isIcon, v);
    }
  }

  /** An attempted width has a record at its URL. */
  lemma AttemptedUrlInPlan(img: Resize.Image, d: string, w: nat, isIcon: bool)
    requires img.width > 0 && PlainDirectory(d)
    requires w in Resize.SizesFor(isIcon) && (isIcon || w <= img.width)
    ensures var v := Resize.MakeVariant(img, d, isIcon, w);
            v in Resize.Plan(img, d, isIcon) && "/" + v.path == ImgHtml.ResizedUrl(d, img.stem, w, isIcon)
  {
    var plan := Resize.Plan(img, d, isIcon);
    Resize.PlanSelectsSizes(img, d, isIcon);
    assert w in Resize.SizesOf(plan);
    var k :| 0 <= k < |plan| && Resize.SizesOf(plan)[k] == w;
    assert plan[k] in plan;
    Resize.PlanRecords(img, d, isIcon);
    assert plan[k] == Resize.MakeVariant(img, d, isIcon, w);
    UrlIsOutputPath(d, img.stem, w, isIcon);
  }

  /** A record at the URL for `w` was made for size `w`, so `w` was attempted. */
  lemma PlannedUrlAttempted(img: Resize.Image, d: string, w: nat, isIcon: bool, v: Resize.Variant)
    requires img.width > 0 && PlainDirectory(d)
    requires v in Resize.Plan(img, d, isIcon) && "/" + v.path == ImgHtml.ResizedUrl(d, img.stem, w, isIcon)
    ensures v.size == w && (isIcon || w <= img.width)
  {
    var plan := Resize.Plan(img, d, isIcon);
    Resize.PlanRecords(img, d, isIcon);
    UrlIsOutputPath(d, img.stem, w, isIcon);
    var fw := Resize.FileName(img.stem, w, isIcon);
    assert v.path == Resize.OutputPath(d, fw) by {
      assert v.path == ("/" + v.path)[1..];
    }
    Resize.PathJoinInjective(PathJoin(d, "resized"), v.filename, fw);
    Resize.FileNameInjective(img.stem, v.size, w, isIcon);
    Resize.PlanSelectsSizes(img, d, isIcon);
    var k :| 0 <= k < |plan| && plan[k] == v;
    assert Resize.SizesOf(plan)[k] == w;
    assert w in Resize.SizesOf(plan);
  }

  /** For a given source image, every resized candidate of the markup
      names a file of the resizer's plan whenever the source is at least
      as wide as the largest width the markup lists (any icon will do). */
  lemma SrcsetNamesPlannedFiles(img: Resize.Image, d: string, isIcon: bool)
    requires img.width > 0 && PlainDirectory(d)
    requires isIcon || img.width >= 1536
    ensures var widths := HtmlMain.WidthsFor(isIcon);
            var cs := ImgHtml.SrcsetCandidates(img.stem, d, widths, isIcon).value;
            forall i :: 0 <= i < |widths| ==>
              exists v :: v in Resize.Plan(img, d, isIcon) && "/" + v.path == cs[i].url
  {
    var widths := HtmlMain.WidthsFor(isIcon);
    ImgHtml.SrcsetShape(img.stem, d, widths, isIcon);
    HtmlWidthsAreResizerSizes(isIcon);
    LargestImageWidth();
    forall i | 0 <= i < |widths|
      ensures exists v :: v in Resize.Plan(img, d, isIcon) && "/" + v.path == ImgHtml.ResizedUrl(d, img.stem, widths[i], isIcon)
    {
      assert widths[i] in widths;
      ResizedUrlInPlan(img, d, widths[i], isIcon);
    }
  }

  /** The `src` of a regular image names the resizer's 640-wide file,
      which exists exactly when the source is at least 640 wide. */
  /** When no attempt raises, the URL of every attempted width names a
      file the run returns. */
  lemma GeneratedUrl(img: Resize.Image, d: string, w: nat, isIcon: bool)
    requires img.width > 0 && PlainDirectory(d)
    requires w in Resize.SizesFor(isIcon) && (isIcon || w <= img.width)
    requires forall v :: v in Resize.Plan(img, d, isIcon) ==> v.height > 0
    ensures exists v :: v in Resize.Generated(true, img, d, isIcon, None) && "/" + v.path == ImgHtml.ResizedUrl(d, img.stem, w, isIcon)
  {
    var plan := Resize.Plan(img, d, isIcon);
    forall k | 0 <= k < |plan|
      ensures plan[k].height > 0
    {
      assert plan[k] in plan;
    }
    Resize.GeneratedRecords(true, img, d, isIcon, None);
    AttemptedUrlInPlan(img, d, w, isIcon);
  }

  lemma SrcInPlan(img: Resize.Image, d: string)
    requires img.width > 0 && PlainDirectory(d)
    ensures var tag := ImgHtml.GenerateImgHtml(img.stem, d, HtmlMain.ImageWidths, false).value;
            (exists v :: v in Resize.Plan(img, d, false) && "/" + v.path == tag.src) <==> img.width >= 640
  {
    ImgHtml.SrcAndAlt(img.stem, d, HtmlMain.ImageWidths, false);
    assert 640 in Resize.SizesFor(false);
    ResizedUrlInPlan(img, d, 640, false);
  }
}

=== FILE: html_main.dfy ===
/** The `main` loop of generate-imagehtml.py: for each configured directory,
    pick the first `.webp` file, choose the width list, and name the two
    output files. The directory listing is an input. */
module HtmlMain {
  import opened Wrappers
  import opened Text
  import opened ImgHtml

  const Directories: seq<string> := ["dvip1", "dvip2", "dvip3", "dvip4", "dvipicon"]
  const IconDirectory: string := "dvipicon"
  const IconWidths: seq<nat> := [48, 72, 96, 128, 180, 192, 256, 512]
  const ImageWidths: seq<nat> := [320, 480, 640, 768, 1024, 1280, 1536]

  /** `Path(d).glob("*.webp")` for each directory, in the order the glob
      yields them; a directory that is not a key has no such file. */
  type Listing = map<string, seq<string>>

  function WebpFiles(listing: Listing, directory: string): seq<string> {
    if directory in listing then listing[directory] else []
  }

  /** What one directory produces: the image tag and the two file names. */
  datatype HtmlOutput = HtmlOutput(directory: string, stem: string, isIcon: bool, widths: seq<nat>,
                                   tag: ImgTag, snippetFile: string, demoFile: string)

  /** Only the icon directory uses the icon widths. */
  function IsIconDirectory(directory: string): bool {
    directory == IconDirectory
  }

  function WidthsFor(isIcon: bool): (widths: seq<nat>)
    ensures |widths| > 0
  {
    if isIcon then IconWidths else ImageWidths
  }

  function SnippetFile(directory: string): string {
    "sizes/" + directory + "-srcset.html"
  }

  function DemoFile(directory: string): string {
    "sizes/" + directory + "-demo.html"
  }

  /** One iteration of the loop: `None` is the `continue` taken when the
      directory holds no `.webp` file. */
  function ProcessDirectory(listing: Listing, directory: string): (r: Option<HtmlOutput>)
    ensures r.None? <==> |WebpFiles(listing, directory)| == 0
    ensures r.Some? ==>
      && r.value.directory == directory
      && r.value.stem == Stem(WebpFiles(listing, directory)[0])
      && (r.value.isIcon <==> directory == IconDirectory)
      && GenerateImgHtml(r.value.stem, directory, r.value.widths, r.value.isIcon) == Success(r.value.tag)
      && r.value.snippetFile != r.value.demoFile
  {
    var files := WebpFiles(listing, directory);
    if |files| == 0 then None
    else
      var stem := Stem(files[0]);
      var isIcon := IsIconDirectory(directory);
      var widths := WidthsFor(isIcon);
      var tag := GenerateImgHtml(stem, directory, widths, isIcon).value;
      OutputFilesDistinct(directory, directory);
      Some(HtmlOutput(directory, stem, isIcon, widths, tag, SnippetFile(directory), DemoFile(directory)))
  }

  function RunOver(listing: Listing, dirs: seq<string>): seq<HtmlOutput>
    decreases |dirs|
  {
    if |dirs| == 0 then []
    else
      var rest := RunOver(listing, dirs[1..]);
      match ProcessDirectory(listing, dirs[0])
      case None => rest
      case Some(o) => [o] + rest
  }

  /** The whole loop over the configured directories. */
  function Run(listing: Listing): seq<HtmlOutput> {
    RunOver(listing, Directories)
  }

  function OutputDirs(outs: seq<HtmlOutput>): (ds: seq<string>)
    ensures |ds| == |outs|
    ensures forall k :: 0 <= k < |outs| ==> ds[k] == outs[k].directory
  {
    seq(|outs|, k requires 0 <= k < |outs| => outs[k].directory)
  }

  lemma OutputDirsCons(o: HtmlOutput, rest: seq<HtmlOutput>)
    ensures OutputDirs([o] + rest) == [o.directory] + OutputDirs(rest)
  {
    assert OutputDirs([o] + rest)[1..] == OutputDirs(rest);
  }

  /** Reference definition: the directories, in order, that have a `.webp` file. */
  function WithWebp(listing: Listing, dirs: seq<string>): seq<string>
    decreases |dirs|
  {
    if |dirs| == 0 then []
    else if |WebpFiles(listing, dirs[0])| == 0 then WithWebp(listing, dirs[1..])
    else [dirs[0]] + WithWebp(listing, dirs[1..])
  }

  /** A directory with a `.webp` file is processed, one without is skipped,
      and the order of the directory list is kept. */
  lemma {:induction false} RunOverSkips(listing: Listing, dirs: seq<string>)
    ensures OutputDirs(RunOver(listing, dirs)) == WithWebp(listing, dirs)
    decreases |dirs|
  {
    if |dirs| > 0 {
      RunOverSkips(listing, dirs[1..]);
      var rest := RunOver(listing, dirs[1..]);
      if |WebpFiles(listing, dirs[0])| > 0 {
        var o := ProcessDirectory(listing, dirs[0]).value;
        assert RunOver(listing, dirs) == [o] + rest;
        OutputDirsCons(o, rest);
      }
    }
  }

  /** The reference list holds exactly the directories with a `.webp` file. */
  lemma {:induction false} WithWebpMembers(listing: Listing, dirs: seq<string>)
    ensures forall d :: d in WithWebp(listing, dirs) <==> d in dirs && |WebpFiles(listing, d)| > 0
    decreases |dirs|
  {
    if |dirs| > 0 {
      WithWebpMembers(listing, dirs[1..]);
      assert dirs == [dirs[0]] + dirs[1..];
    }
  }

  /** Nothing is skipped when every directory holds a `.webp` file. */
  lemma {:induction false} WithWebpAll(listing: Listing, dirs: seq<string>)
    requires forall d :: d in dirs ==> |WebpFiles(listing, d)| > 0
    ensures WithWebp(listing, dirs) == dirs
    decreases |dirs|
  {
    if |dirs| > 0 {
      assert dirs[0] in dirs;
      WithWebpAll(listing, dirs[1..]);
      assert dirs == [dirs[0]] + dirs[1..];
    }
  }

  /** Each output describes the directory it names: its first `.webp`
      file's stem, the width list chosen by whether it is the icon
      directory, the tag built from them, and the two output files. */
  lemma {:induction false} RunOverOutputs(listing: Listing, dirs: seq<string>)
    ensures forall o :: o in RunOver(listing, dirs) ==>
      && o.directory in dirs
      && |WebpFiles(listing, o.directory)| > 0
      && o.stem == Stem(WebpFiles(listing, o.directory)[0])
      && (o.isIcon <==> o.directory == IconDirectory)
      && o.widths == (if o.isIcon then IconWidths else ImageWidths)
      && GenerateImgHtml(o.stem, o.directory, o.widths, o.isIcon) == Success(o.tag)
      && o.snippetFile == "sizes/" + o.directory + "-srcset.html"
      && o.demoFile == "sizes/" + o.directory + "-demo.html"
    decreases |dirs|
  {
    if |dirs| > 0 {
      RunOverOutputs(listing, dirs[1..]);
    }
  }

  /** The script's run: exactly the configured directories that hold a
      `.webp` file, in configuration order, each fully described. */
  lemma RunOutputs(listing: Listing)
    ensures OutputDirs(Run(listing)) == WithWebp(listing, Directories)
    ensures forall d :: d in OutputDirs(Run(listing)) <==> d in Directories && |WebpFiles(listing, d)| > 0
    ensures forall o :: o in Run(listing) ==>
      && |WebpFiles(listing, o.directory)| > 0
      && o.stem == Stem(WebpFiles(listing, o.directory)[0])
      && (o.isIcon <==> o.directory == IconDirectory)
      && o.widths == WidthsFor(o.isIcon)
      && GenerateImgHtml(o.stem, o.directory, o.widths, o.isIcon) == Success(o.tag)
      && o.snippetFile == SnippetFile(o.directory)
      && o.demoFile == DemoFile(o.directory)
  {
    RunOverSkips(listing, Directories);
    WithWebpMembers(listing, Directories);
    RunOverOutputs(listing, Directories);
  }

  /** With every directory populated, all five are processed in order. */
  lemma FullListing(listing: Listing)
    requires forall d :: d in Directories ==> |WebpFiles(listing, d)| > 0
    ensures OutputDirs(Run(listing)) == Directories
  {
    RunOverSkips(listing, Directories);
    WithWebpAll(listing, Directories);
  }

  /** Distinct directories write distinct snippet and demo files. */
  lemma OutputFilesDistinct(d1: string, d2: string)
    ensures SnippetFile(d1) == SnippetFile(d2) ==> d1 == d2
    ensures DemoFile(d1) == DemoFile(d2) ==> d1 == d2
    ensures SnippetFile(d1) != DemoFile(d2)
  {
    if SnippetFile(d1) == SnippetFile(d2) {
      assert |d1| == |d2|;
      assert d1 == SnippetFile(d1)[6..6 + |d1|];
    }
    if DemoFile(d1) == DemoFile(d2) {
      assert |d1| == |d2|;
      assert d1 == DemoFile(d1)[6..6 + |d1|];
    }
    var s, t := SnippetFile(d1), DemoFile(d2);
    assert s[|s| - 6] == 't' && t[|t| - 6] == 'o';
  }
}

=== FILE: img_html.dfy ===
/** `generate_img_html` (generate-imagehtml.py): the `srcset` candidate
    list and the attributes of the `<img>` element for one image. Resized
    files are referred to by naming convention only. */
module ImgHtml {
  import opened Wrappers
  import opened Text

  /** One `srcset` candidate: a URL with its width descriptor. */
  datatype Candidate = Candidate(url: string, width: nat)

  /** The attribute values of the emitted `<img>` element. */
  datatype ImgTag = ImgTag(src: string, srcset: string, sizes: string, alt: string,
                           width: string, height: string, loading: string, cssClass: string)

  /** The exception `widths[-1]` raises on an empty list. */
  datatype HtmlError = IndexError

  /** URL of a resized file: `-{w}x{w}` for icons, `-{w}w` otherwise. */
  function ResizedUrl(directory: string, name: string, width: nat, isIcon: bool): string {
    var w := NatToString(width);
    "/" + directory + "/resized/" + name + "-" + w + (if isIcon then "x" + w else "w") + ".webp"
  }

  /** URL of the original image, kept next to the `resized` folder. */
  function OriginalUrl(directory: string, name: string): string {
    "/" + directory + "/" + name + ".webp"
  }

  /** A candidate as written in the attribute: `url {w}w`. */
  function CandidateText(c: Candidate): string {
    c.url + " " + NatToString(c.width) + "w"
  }

  function CandidateTexts(cs: seq<Candidate>): seq<string> {
    seq(|cs|, k requires 0 <= k < |cs| => CandidateText(cs[k]))
  }

  /** The `for width in widths` loop: one appended candidate per width. */
  function ResizedCandidates(directory: string, name: string, widths: seq<nat>, isIcon: bool): (cs: seq<Candidate>)
    ensures |cs| == |widths|
    ensures forall i :: 0 <= i < |widths| ==> cs[i] == Candidate(ResizedUrl(directory, name, widths[i], isIcon), widths[i])
    decreases |widths|
  {
    if |widths| == 0 then []
    else
      var n := |widths| - 1;
      ResizedCandidates(directory, name, widths[..n], isIcon) + [Candidate(ResizedUrl(directory, name, widths[n], isIcon), widths[n])]
  }

  /** The complete candidate list: for a regular image the original is
      appended with the last width, which fails on an empty list. */
  function SrcsetCandidates(name: string, directory: string, widths: seq<nat>, isIcon: bool): (r: Result<seq<Candidate>, HtmlError>)
    ensures r.Failure? <==> !isIcon && |widths| == 0
    ensures r.Success? ==> |r.value| == |widths| + (if isIcon then 0 else 1)
    ensures r.Success? ==> r.value[..|widths|] == ResizedCandidates(directory, name, widths, isIcon)
    ensures r.Success? && !isIcon ==> r.value[|widths|].url == OriginalUrl(directory, name)
  {
    var resized := ResizedCandidates(directory, name, widths, isIcon);
    if isIcon then Success(resized)
    else if |widths| == 0 then Failure(IndexError)
    else Success(resized + [Candidate(OriginalUrl(directory, name), widths[|widths| - 1])])
  }

  const IconSizesAttribute: string := "(max-width: 48px) 48px, (max-width: 96px) 96px, 128px"
  const ImageSizesAttribute: string := "(max-width: 640px) 100vw, (max-width: 1024px) 50vw, 33vw"

  /** `generate_img_html`: the element's attributes, or the exception. */
  function GenerateImgHtml(imageName: string, directory: string, widths: seq<nat>, isIcon: bool): (r: Result<ImgTag, HtmlError>)
    ensures r.Failure? <==> !isIcon && |widths| == 0
  {
    match SrcsetCandidates(imageName, directory, widths, isIcon)
    case Failure(e) => Failure(e)
    case Success(cs) =>
      var srcset := Join(CandidateTexts(cs));
      if isIcon then
        Success(ImgTag(OriginalUrl(directory, imageName), srcset, IconSizesAttribute,
                       directory + " icon", "512", "512", "lazy", "responsive-icon"))
      else
        Success(ImgTag(ResizedUrl(directory, imageName, 640, false), srcset, ImageSizesAttribute,
                       directory + " image", "1024", "auto", "lazy", "responsive-image"))
  }

  function Attribute(name: string, value: string): string {
    "    " + name + "=\"" + value + "\""
  }

  /** The element's lines, laid out as the template lays them out: the
      opening line and the `src` line end in a blank. */
  function TagLines(t: ImgTag): seq<string> {
    ["<img ", Attribute("src", t.src) + " ", Attribute("srcset", t.srcset), Attribute("sizes", t.sizes),
     Attribute("alt", t.alt), Attribute("width", t.width), Attribute("height", t.height),
     Attribute("loading", t.loading), Attribute("class", t.cssClass), ">"]
  }

  /** The element's text. */
  function Render(t: ImgTag): string {
    JoinLines(TagLines(t))
  }

  /** No attribute value spans a line. */
  predicate SingleLine(t: ImgTag) {
    '\n' !in t.src && '\n' !in t.srcset && '\n' !in t.sizes && '\n' !in t.alt
    && '\n' !in t.width && '\n' !in t.height && '\n' !in t.loading && '\n' !in t.cssClass
  }

  /** Read back line by line, the text holds the opening line, one line
      per attribute in template order, and the closing `>`. */
  lemma RenderLines(t: ImgTag)
    requires SingleLine(t)
    ensures var ls := SplitLines(Render(t));
      && |ls| == 10 && ls[0] == "<img " && ls[9] == ">"
      && ls[1] == Attribute("src", t.src) + " "
      && ls[2] == Attribute("srcset", t.srcset)
      && ls[3] == Attribute("sizes", t.sizes)
      && ls[4] == Attribute("alt", t.alt)
      && ls[5] == Attribute("width", t.width)
      && ls[6] == Attribute("height", t.height)
      && ls[7] == Attribute("loading", t.loading)
      && ls[8] == Attribute("class", t.cssClass)
  {
    var ls := TagLines(t);
    forall k | 0 <= k < |ls|
      ensures '\n' !in ls[k]
    {
    }
    SplitJoinLines(ls);
  }

  /** The candidate list: one entry per width in width order, each naming
      the resized file of that width, then for a regular image the
      original tagged with the last width; icons get no original entry. */
  lemma SrcsetShape(name: string, directory: string, widths: seq<nat>, isIcon: bool)
    ensures var r := SrcsetCandidates(name, directory, widths, isIcon);
      && (r.Failure? <==> !isIcon && |widths| == 0)
      && (r.Success? ==>
            && |r.value| == |widths| + (if isIcon then 0 else 1)
            && (forall i :: 0 <= i < |widths| ==>
                  r.value[i] == Candidate(ResizedUrl(directory, name, widths[i], isIcon), widths[i]))
            && (!isIcon ==> r.value[|widths|] == Candidate(OriginalUrl(directory, name), widths[|widths| - 1])))
  {
  }

  lemma DigitsHaveNoComma(s: string)
    requires AllDigits(s)
    ensures ',' !in s
  {
    forall k | 0 <= k < |s|
      ensures s[k] != ','
    {
      assert IsDigit(s[k]);
    }
  }

  /** A candidate's text holds no comma when the names hold none. */
  lemma CandidateTextNoComma(c: Candidate)
    requires ',' !in c.url
    ensures ',' !in CandidateText(c)
  {
    DigitsHaveNoComma(NatToString(c.width));
  }

  lemma ResizedUrlNoComma(directory: string, name: string, width: nat, isIcon: bool)
    requires ',' !in directory && ',' !in name
    ensures ',' !in ResizedUrl(directory, name, width, isIcon)
  {
    DigitsHaveNoComma(NatToString(width));
  }

  /** The `srcset` attribute is the candidates' texts joined with ", ":
      splitting it at ", " gives back every candidate, in order, provided
      directory and image names contain no comma. */
  lemma SrcsetRoundTrip(name: string, directory: string, widths: seq<nat>, isIcon: bool)
    requires ',' !in directory && ',' !in name
    ensures var r := GenerateImgHtml(name, directory, widths, isIcon);
            var cs := SrcsetCandidates(name, directory, widths, isIcon);
            r.Success? && (isIcon ==> |widths| > 0) ==> SplitList(r.value.srcset) == CandidateTexts(cs.value)
  {
    var r := GenerateImgHtml(name, directory, widths, isIcon);
    var cs := SrcsetCandidates(name, directory, widths, isIcon);
    if r.Success? && (isIcon ==> |widths| > 0) {
      var texts := CandidateTexts(cs.value);
      forall k | 0 <= k < |texts|
        ensures ',' !in texts[k]
      {
        var c := cs.value[k];
        if k < |widths| {
          ResizedUrlNoComma(directory, name, widths[k], isIcon);
        } else {
          assert c.url == OriginalUrl(directory, name);
        }
        CandidateTextNoComma(c);
      }
      SplitJoin(texts);
    }
  }

  /** `src` of a regular image is always its 640-wide file, whatever the
      width list; an icon's `src` is the original. `alt` names the directory. */
  lemma SrcAndAlt(name: string, directory: string, widths: seq<nat>, isIcon: bool)
    ensures var r := GenerateImgHtml(name, directory, widths, isIcon);
      r.Success? ==>
        && r.value.src == (if isIcon then OriginalUrl(directory, name) else ResizedUrl(directory, name, 640, false))
        && r.value.alt == directory + (if isIcon then " icon" else " image")
  {
  }

  /** Two width lists give the same `src` for a regular image. */
  lemma SrcIndependentOfWidths(name: string, directory: string, widths1: seq<nat>, widths2: seq<nat>)
    requires |widths1| > 0 && |widths2| > 0
    ensures GenerateImgHtml(name, directory, widths1, false).value.src == GenerateImgHtml(name, directory, widths2, false).value.src
  {
  }
}

=== FILE: resize.dfy ===
/** The resize plan of `generate_responsive_images` (generate-image.py):
    which sizes are produced for one source image, with which dimensions,
    file names and paths, and what survives when the image library fails
    part-way. Pixel work (decoding, resampling, WebP encoding) is not
    modelled; only the point at which it may raise is. */
module Resize {
  import opened Wrappers
  import opened Text

  /** Target widths for regular images, smallest first. */
  const ResponsiveSizes: seq<nat> := [180, 320, 480, 640, 768, 1024, 1280, 1536, 1920, 2560]

  /** Target widths for the icon directory, smallest first. */
  const IconSizes: seq<nat> := [16, 32, 48, 72, 96, 128, 180, 192, 256, 512]

  /** The decoded source: its pixel size and the stem of its file name. */
  datatype Image = Image(width: nat, height: nat, stem: string)

  /** One record of the returned list: `size` and `width` are both the target width. */
  datatype Variant = Variant(size: nat, width: nat, height: nat, filename: string, path: string)

  predicate StrictlyIncreasing(s: seq<nat>) {
    forall i, j :: 0 <= i < j < |s| ==> s[i] < s[j]
  }

  /** The size list of a run: the icon list exactly in icon mode. */
  function SizesFor(isIcon: bool): (sizes: seq<nat>)
    ensures sizes == IconSizes <==> isIcon
    ensures sizes == ResponsiveSizes <==> !isIcon
    ensures |sizes| == 10
  {
    if isIcon then IconSizes else ResponsiveSizes
  }

  /** Both size lists are strictly increasing and start above zero. */
  lemma SizeListsIncreasing(isIcon: bool)
    ensures StrictlyIncreasing(SizesFor(isIcon))
    ensures forall k :: 0 <= k < |SizesFor(isIcon)| ==> SizesFor(isIcon)[k] > 0
  {
  }

  /** Whether the loop works on `size` rather than skipping it: regular
      images are never upscaled, icons always are produced. */
  predicate Attempts(size: nat, originalWidth: nat, isIcon: bool) {
    isIcon || size <= originalWidth
  }

  /** The sizes the loop works on, in loop order. */
  function Attempted(sizes: seq<nat>, originalWidth: nat, isIcon: bool): (kept: seq<nat>)
    ensures |kept| <= |sizes|
    decreases |sizes|
  {
    if |sizes| == 0 then []
    else
      var last := sizes[|sizes| - 1];
      var front := sizes[..|sizes| - 1];
      assert sizes == front + [last];
      Attempted(front, originalWidth, isIcon) + (if Attempts(last, originalWidth, isIcon) then [last] else [])
  }

  /** `int(original_height * size / original_width)` on exact integers:
      the largest height whose aspect ratio does not exceed the source's. */
  function Height(originalWidth: nat, originalHeight: nat, size: nat): (h: nat)
    requires originalWidth > 0
    ensures h * originalWidth <= originalHeight * size < (h + 1) * originalWidth
  {
    (originalHeight * size) / originalWidth
  }

  /** `{stem}-{size}x{size}.webp` for icons, `{stem}-{size}w.webp` otherwise. */
  function FileName(stem: string, size: nat, isIcon: bool): (name: string)
    ensures |name| > |stem| && name[..|stem|] == stem
    ensures '/' !in stem ==> '/' !in name
  {
    if isIcon then stem + "-" + NatToString(size) + "x" + NatToString(size) + ".webp"
    else stem + "-" + NatToString(size) + "w.webp"
  }

  /** `str(Path(output_dir) / 'resized' / filename)`. */
  function OutputPath(outDir: string, filename: string): string {
    PathJoin(PathJoin(outDir, "resized"), filename)
  }

  /** The output file is the file name inside the `resized` folder: the
      name is the path's last component, for any output directory. */
  lemma OutputPathName(outDir: string, filename: string)
    requires '/' !in filename
    ensures LastComponent(OutputPath(outDir, filename)) == filename
  {
    LastComponentOfJoin(PathJoin(outDir, "resized"), filename);
  }

  function MakeVariant(img: Image, outDir: string, isIcon: bool, size: nat): Variant
    requires img.width > 0
  {
    var filename := FileName(img.stem, size, isIcon);
    Variant(size, size, Height(img.width, img.height, size), filename, OutputPath(outDir, filename))
  }

  function Variants(img: Image, outDir: string, isIcon: bool, sizes: seq<nat>): seq<Variant>
    requires img.width > 0
  {
    seq(|sizes|, k requires 0 <= k < |sizes| => MakeVariant(img, outDir, isIcon, sizes[k]))
  }

  /** The records a run over `sizes` makes when nothing fails. */
  function PlanFor(img: Image, outDir: string, isIcon: bool, sizes: seq<nat>): seq<Variant>
    requires img.width > 0
  {
    Variants(img, outDir, isIcon, Attempted(sizes, img.width, isIcon))
  }

  /** Every record a run produces when nothing fails. */
  function Plan(img: Image, outDir: string, isIcon: bool): seq<Variant>
    requires img.width > 0
  {
    PlanFor(img, outDir, isIcon, SizesFor(isIcon))
  }

  function SizesOf(vs: seq<Variant>): seq<nat> {
    seq(|vs|, k requires 0 <= k < |vs| => vs[k].size)
  }

  /** Whether making the k-th attempted record raises: the image library
      fails there (`failAt`), or the computed height is 0, which the
      resize call rejects with a `ValueError`. */
  predicate Raises(v: Variant, k: nat, failAt: Option<nat>) {
    failAt == Some(k) || v.height == 0
  }

  /** No record of `made`, taken as the attempts of a run in order, raises. */
  predicate NoneRaise(made: seq<Variant>, failAt: Option<nat>) {
    forall j :: 0 <= j < |made| ==> !Raises(made[j], j, failAt)
  }

  lemma NoneRaiseSnoc(made: seq<Variant>, v: Variant, failAt: Option<nat>)
    requires NoneRaise(made, failAt) && !Raises(v, |made|, failAt)
    ensures NoneRaise(made + [v], failAt)
  {
  }

  /** The first attempt from `k` on that raises, or `|plan|` when none does. */
  function StopFrom(plan: seq<Variant>, failAt: Option<nat>, k: nat): (stop: nat)
    requires k <= |plan|
    ensures k <= stop <= |plan|
    ensures forall j :: k <= j < stop ==> !Raises(plan[j], j, failAt)
    ensures stop < |plan| ==> Raises(plan[stop], stop, failAt)
    decreases |plan| - k
  {
    if k == |plan| then k
    else if Raises(plan[k], k, failAt) then k
    else StopFrom(plan, failAt, k + 1)
  }

  /** The records that exist when the loop stops at the first attempt that
      raises: those made before it. */
  function Truncate(plan: seq<Variant>, failAt: Option<nat>): seq<Variant> {
    plan[..StopFrom(plan, failAt, 0)]
  }

  /** The list a run returns. `failAt == Some(k)` means the image library
      raises while the k-th attempted record is being made (`Some(0)` also
      covers a failing `Image.open`); a record whose height comes out 0
      raises as well. The exception is caught and the records made before
      it are returned. A zero source width makes the first attempted size
      divide by zero, which is caught the same way. */
  function Generated(sourceExists: bool, img: Image, outDir: string, isIcon: bool, failAt: Option<nat>): (r: seq<Variant>)
    ensures |r| <= |SizesFor(isIcon)|
  {
    if !sourceExists || img.width == 0 then []
    else Truncate(Plan(img, outDir, isIcon), failAt)
  }

  /** `generate_responsive_images`: a missing source gives the empty list;
      otherwise the size list of the mode is processed. */
  method GenerateResponsiveImages(sourceExists: bool, img: Image, outDir: string, isIcon: bool, failAt: Option<nat>)
    returns (generated: seq<Variant>)
    ensures generated == Generated(sourceExists, img, outDir, isIcon, failAt)
    ensures !sourceExists ==> generated == []
  {
    if !sourceExists {
      return [];
    }
    SizeListsIncreasing(isIcon);
    generated := ResizeEach(img, outDir, isIcon, SizesFor(isIcon), failAt);
  }

  /** The `try` block of `generate_responsive_images`: one size at a time,
      skipping sizes that would upscale a regular image, stopping at the
      first exception. */
  method ResizeEach(img: Image, outDir: string, isIcon: bool, sizes: seq<nat>, failAt: Option<nat>)
    returns (generated: seq<Variant>)
    requires forall k :: 0 <= k < |sizes| ==> sizes[k] > 0
    ensures img.width == 0 ==> generated == []
    ensures img.width > 0 ==> generated == Truncate(PlanFor(img, outDir, isIcon, sizes), failAt)
  {
    generated := [];
    var i := 0;
    while i < |sizes|
      invariant 0 <= i <= |sizes|
      invariant img.width == 0 ==> generated == []
      invariant img.width > 0 ==> generated == PlanFor(img, outDir, isIcon, sizes[..i])
      invariant NoneRaise(generated, failAt)
    {
      var size := sizes[i];
      if img.width > 0 {
        ResizeStep(img, outDir, isIcon, sizes, i, failAt, generated);
      }
      if Attempts(size, img.width, isIcon) {
        if img.width == 0 {
          // `size / original_width` raises ZeroDivisionError
          return;
        }
        var v := MakeVariant(img, outDir, isIcon, size);
        if Raises(v, |generated|, failAt) {
          // the image library raises, or the resize rejects a zero height;
          // the records made so far are returned
          return;
        }
        generated := generated + [v];
      }
      i := i + 1;
    }
    if img.width > 0 {
      ResizeDone(img, outDir, isIcon, sizes, failAt, generated);
    }
  }

  /** After the last size, the records made are the truncated plan. */
  lemma ResizeDone(img: Image, outDir: string, isIcon: bool, sizes: seq<nat>, failAt: Option<nat>, made: seq<Variant>)
    requires img.width > 0
    requires made == PlanFor(img, outDir, isIcon, sizes[..|sizes|]) && NoneRaise(made, failAt)
    ensures made == Truncate(PlanFor(img, outDir, isIcon, sizes), failAt)
  {
    assert sizes[..|sizes|] == sizes;
    TruncateAt(made, failAt, |made|);
  }

  /** One pass of the loop in `ResizeEach`: a size that is skipped leaves
      the records as they are, one that raises ends the run with the
      records made so far, and any other adds its record. */
  lemma ResizeStep(img: Image, outDir: string, isIcon: bool, sizes: seq<nat>, i: nat, failAt: Option<nat>, made: seq<Variant>)
    requires img.width > 0 && i < |sizes|
    requires made == PlanFor(img, outDir, isIcon, sizes[..i]) && NoneRaise(made, failAt)
    ensures !Attempts(sizes[i], img.width, isIcon) ==> made == PlanFor(img, outDir, isIcon, sizes[..i + 1])
    ensures var v := MakeVariant(img, outDir, isIcon, sizes[i]);
            Attempts(sizes[i], img.width, isIcon) && Raises(v, |made|, failAt) ==>
              made == Truncate(PlanFor(img, outDir, isIcon, sizes), failAt)
    ensures var v := MakeVariant(img, outDir, isIcon, sizes[i]);
            Attempts(sizes[i], img.width, isIcon) && !Raises(v, |made|, failAt) ==>
              made + [v] == PlanFor(img, outDir, isIcon, sizes[..i + 1]) && NoneRaise(made + [v], failAt)
  {
    var v := MakeVariant(img, outDir, isIcon, sizes[i]);
    PlanForSnoc(img, outDir, isIcon, sizes, i);
    if Attempts(sizes[i], img.width, isIcon) {
      if Raises(v, |made|, failAt) {
        TruncateAtFailure(img, outDir, isIcon, sizes, i, failAt, made);
      } else {
        NoneRaiseSnoc(made, v, failAt);
      }
    }
  }

  /** One more size: the attempted list grows by it exactly when it is attempted. */
  lemma AttemptedSnoc(sizes: seq<nat>, originalWidth: nat, isIcon: bool, i: nat)
    requires i < |sizes|
    ensures Attempted(sizes[..i + 1], originalWidth, isIcon)
         == Attempted(sizes[..i], originalWidth, isIcon) + (if Attempts(sizes[i], originalWidth, isIcon) then [sizes[i]] else [])
  {
    assert sizes[..i + 1][..i] == sizes[..i];
  }

  /** One more size: the plan grows by its record exactly when it is attempted. */
  lemma PlanForSnoc(img: Image, outDir: string, isIcon: bool, sizes: seq<nat>, i: nat)
    requires img.width > 0 && i < |sizes|
    ensures PlanFor(img, outDir, isIcon, sizes[..i + 1])
         == PlanFor(img, outDir, isIcon, sizes[..i]) + (if Attempts(sizes[i], img.width, isIcon) then [MakeVariant(img, outDir, isIcon, sizes[i])] else [])
  {
    AttemptedSnoc(sizes, img.width, isIcon, i);
    VariantsSnoc(img, outDir, isIcon, Attempted(sizes[..i], img.width, isIcon), sizes[i]);
  }

  lemma VariantsSnoc(img: Image, outDir: string, isIcon: bool, sizes: seq<nat>, size: nat)
    requires img.width > 0
    ensures Variants(img, outDir, isIcon, sizes + [size]) == Variants(img, outDir, isIcon, sizes) + [MakeVariant(img, outDir, isIcon, size)]
  {
  }

  /** The run stops at `g` exactly when attempt `g` is the first that raises. */
  lemma TruncateAt(plan: seq<Variant>, failAt: Option<nat>, g: nat)
    requires g <= |plan|
    requires forall j :: 0 <= j < g ==> !Raises(plan[j], j, failAt)
    requires g < |plan| ==> Raises(plan[g], g, failAt)
    ensures Truncate(plan, failAt) == plan[..g]
  {
    var stop := StopFrom(plan, failAt, 0);
    assert stop <= g;
    assert stop >= g;
  }

  /** Raising at the attempt for `sizes[i]`, after every earlier attempt
      went through, leaves exactly the records made before it. */
  lemma TruncateAtFailure(img: Image, outDir: string, isIcon: bool, sizes: seq<nat>, i: nat, failAt: Option<nat>, made: seq<Variant>)
    requires img.width > 0 && i < |sizes|
    requires Attempts(sizes[i], img.width, isIcon)
    requires made == PlanFor(img, outDir, isIcon, sizes[..i])
    requires NoneRaise(made, failAt)
    requires Raises(MakeVariant(img, outDir, isIcon, sizes[i]), |made|, failAt)
    ensures Truncate(PlanFor(img, outDir, isIcon, sizes), failAt) == made
  {
    var part := Attempted(sizes[..i], img.width, isIcon);
    var whole := Attempted(sizes, img.width, isIcon);
    var next := Attempted(sizes[..i + 1], img.width, isIcon);
    AttemptedSnoc(sizes, img.width, isIcon, i);
    assert next == part + [sizes[i]];
    AttemptedPrefix(sizes, img.width, isIcon, i + 1);
    assert whole[..|next|] == next;
    assert next[..|part|] == part;
    assert whole[..|part|] == part;
    assert whole[|part|] == sizes[i];
    var plan := PlanFor(img, outDir, isIcon, sizes);
    VariantsPrefix(img, outDir, isIcon, whole, |part|);
    assert plan[..|part|] == PlanFor(img, outDir, isIcon, sizes[..i]);
    assert plan[|part|] == MakeVariant(img, outDir, isIcon, sizes[i]);
    TruncateAt(plan, failAt, |part|);
  }

  /** The sizes attempted over a prefix of the list are a prefix of those
      attempted over the whole list. */
  lemma {:induction false} AttemptedPrefix(sizes: seq<nat>, originalWidth: nat, isIcon: bool, i: nat)
    requires i <= |sizes|
    ensures var whole := Attempted(sizes, originalWidth, isIcon);
            var part := Attempted(sizes[..i], originalWidth, isIcon);
            |part| <= |whole| && whole[..|part|] == part
    decreases |sizes| - i
  {
    if i == |sizes| {
      assert sizes[..i] == sizes;
    } else {
      AttemptedPrefix(sizes, originalWidth, isIcon, i + 1);
      assert sizes[..i + 1][..i] == sizes[..i];
    }
  }

  lemma VariantsPrefix(img: Image, outDir: string, isIcon: bool, sizes: seq<nat>, k: nat)
    requires img.width > 0 && k <= |sizes|
    ensures Variants(img, outDir, isIcon, sizes)[..k] == Variants(img, outDir, isIcon, sizes[..k])
  {
  }

  /** The attempted sizes are exactly the positions of the list the loop
      does not skip, in their original order: an order-preserving
      subsequence. `idx` lists the positions. */
  lemma {:induction false} AttemptedIsSubsequence(sizes: seq<nat>, originalWidth: nat, isIcon: bool)
    returns (idx: seq<nat>)
    ensures var kept := Attempted(sizes, originalWidth, isIcon);
            |idx| == |kept| &&
            (forall k :: 0 <= k < |idx| ==> idx[k] < |sizes| && kept[k] == sizes[idx[k]]) &&
            (forall k, l :: 0 <= k < l < |idx| ==> idx[k] < idx[l]) &&
            (forall j :: 0 <= j < |sizes| ==> (j in idx <==> Attempts(sizes[j], originalWidth, isIcon)))
    decreases |sizes|
  {
    if |sizes| == 0 {
      idx := [];
    } else {
      var n := |sizes| - 1;
      var front := sizes[..n];
      var rest := AttemptedIsSubsequence(front, originalWidth, isIcon);
      if Attempts(sizes[n], originalWidth, isIcon) {
        idx := rest + [n];
      } else {
        idx := rest;
      }
    }
  }

  /** A size is attempted iff it is in the list and not skipped; the
      list's increasing order is kept. */
  lemma {:induction false} AttemptedMembers(sizes: seq<nat>, originalWidth: nat, isIcon: bool)
    ensures forall s :: s in Attempted(sizes, originalWidth, isIcon) <==> s in sizes && Attempts(s, originalWidth, isIcon)
    ensures StrictlyIncreasing(sizes) ==> StrictlyIncreasing(Attempted(sizes, originalWidth, isIcon))
    decreases |sizes|
  {
    if |sizes| > 0 {
      var front := sizes[..|sizes| - 1];
      var last := sizes[|sizes| - 1];
      assert sizes == front + [last];
      AttemptedMembers(front, originalWidth, isIcon);
      if StrictlyIncreasing(sizes) {
        assert StrictlyIncreasing(front);
        var rest := Attempted(front, originalWidth, isIcon);
        forall x | x in rest
          ensures x < last
        {
          var j :| 0 <= j < |front| && front[j] == x;
          assert sizes[j] == x;
        }
        var kept := Attempted(sizes, originalWidth, isIcon);
        forall i, j | 0 <= i < j < |kept|
          ensures kept[i] < kept[j]
        {
          if j == |rest| {
            assert kept[i] == rest[i];
            assert rest[i] in rest;
          } else {
            assert kept[i] == rest[i] && kept[j] == rest[j];
          }
        }
      }
    }
  }

  /** When every size is attempted, the attempted list is the size list itself. */
  lemma {:induction false} AttemptedAll(sizes: seq<nat>, originalWidth: nat, isIcon: bool)
    requires forall k :: 0 <= k < |sizes| ==> Attempts(sizes[k], originalWidth, isIcon)
    ensures Attempted(sizes, originalWidth, isIcon) == sizes
    decreases |sizes|
  {
    if |sizes| > 0 {
      var front := sizes[..|sizes| - 1];
      AttemptedAll(front, originalWidth, isIcon);
      assert sizes == front + [sizes[|sizes| - 1]];
    }
  }

  lemma PlanSizes(img: Image, outDir: string, isIcon: bool)
    requires img.width > 0
    ensures SizesOf(Plan(img, outDir, isIcon)) == Attempted(SizesFor(isIcon), img.width, isIcon)
  {
  }

  /** A size appears in the plan iff it is in the mode's list and, for a
      regular image, does not exceed the source width; the plan keeps the
      list's increasing order. */
  lemma PlanSelectsSizes(img: Image, outDir: string, isIcon: bool)
    requires img.width > 0
    ensures forall s :: s in SizesOf(Plan(img, outDir, isIcon)) <==> s in SizesFor(isIcon) && (isIcon || s <= img.width)
    ensures StrictlyIncreasing(SizesOf(Plan(img, outDir, isIcon)))
  {
    PlanSizes(img, outDir, isIcon);
    SizeListsIncreasing(isIcon);
    AttemptedMembers(SizesFor(isIcon), img.width, isIcon);
  }

  /** In icon mode the plan has all ten icon sizes in order, whatever the
      source's dimensions. */
  lemma PlanIconComplete(img: Image, outDir: string)
    requires img.width > 0
    ensures SizesOf(Plan(img, outDir, true)) == IconSizes
    ensures |Plan(img, outDir, true)| == 10
  {
    AttemptedAll(IconSizes, img.width, true);
    PlanSizes(img, outDir, true);
  }

  /** Multiplying by a positive factor keeps `<=`, read backwards. */
  lemma {:induction false} MulMono(x: nat, y: nat, w: nat)
    requires x <= y
    ensures x * w <= y * w
    decreases y - x
  {
    if x < y {
      MulMono(x, y - 1, w);
      assert y * w == (y - 1) * w + w;
    }
  }

  lemma MulCancel(a: nat, b: nat, w: nat)
    requires w > 0 && a * w <= b * w
    ensures a <= b
  {
    if a > b {
      MulMono(b + 1, a, w);
    }
  }

  /** Each record: width equals size, the height is the floor of the
      proportional height, and name and path follow the naming scheme. */
  lemma PlanRecords(img: Image, outDir: string, isIcon: bool)
    requires img.width > 0
    ensures forall v :: v in Plan(img, outDir, isIcon) ==>
      && v.width == v.size
      && v.height * img.width <= img.height * v.size < (v.height + 1) * img.width
      && v.filename == FileName(img.stem, v.size, isIcon)
      && v.path == OutputPath(outDir, v.filename)
  {
    var plan := Plan(img, outDir, isIcon);
    var kept := Attempted(SizesFor(isIcon), img.width, isIcon);
    forall v | v in plan
      ensures && v.width == v.size
              && v.height * img.width <= img.height * v.size < (v.height + 1) * img.width
              && v.filename == FileName(img.stem, v.size, isIcon)
              && v.path == OutputPath(outDir, v.filename)
    {
      var k :| 0 <= k < |plan| && plan[k] == v;
      assert v == MakeVariant(img, outDir, isIcon, kept[k]);
      MakeVariantRecord(img, outDir, isIcon, kept[k]);
    }
  }

  lemma MakeVariantRecord(img: Image, outDir: string, isIcon: bool, size: nat)
    requires img.width > 0
    ensures var v := MakeVariant(img, outDir, isIcon, size);
      && v.width == v.size == size
      && v.height * img.width <= img.height * v.size < (v.height + 1) * img.width
      && v.filename == FileName(img.stem, v.size, isIcon)
      && v.path == OutputPath(outDir, v.filename)
  {
  }

  /** A regular image is never enlarged: every record fits in the source. */
  lemma PlanNoUpscale(img: Image, outDir: string)
    requires img.width > 0
    ensures forall v :: v in Plan(img, outDir, false) ==> v.width <= img.width && v.height <= img.height
  {
    var plan := Plan(img, outDir, false);
    PlanSelectsSizes(img, outDir, false);
    forall v | v in plan
      ensures v.width <= img.width && v.height <= img.height
    {
      var k :| 0 <= k < |plan| && plan[k] == v;
      assert v.size == SizesOf(plan)[k];
      assert v.size in SizesOf(plan);
      assert v.size <= img.width;
      MulMono(v.size, img.width, img.height);
      assert img.height * v.size <= img.height * img.width;
      MulCancel(v.height, img.height, img.width);
    }
  }

  /** A square icon source gives square icons: each height equals its width. */
  lemma PlanSquareIcons(img: Image, outDir: string)
    requires img.width > 0 && img.height == img.width
    ensures forall v :: v in Plan(img, outDir, true) ==> v.height == v.width
  {
    var plan := Plan(img, outDir, true);
    PlanRecords(img, outDir, true);
    forall v | v in plan
      ensures v.height == v.width
    {
      assert v.height * img.width <= img.height * v.size < (v.height + 1) * img.width;
      SquareHeight(v.height, v.size, img.width);
    }
  }

  /** The floor of `s * w / w` is `s`. */
  lemma SquareHeight(h: nat, s: nat, w: nat)
    requires w > 0 && h * w <= w * s < (h + 1) * w
    ensures h == s
  {
    MulCancel(h, s, w);
    if h + 1 <= s {
      MulMono(h + 1, s, w);
    }
  }

  /** Distinct sizes give distinct file names. */
  lemma FileNameInjective(stem: string, a: nat, b: nat, isIcon: bool)
    requires FileName(stem, a, isIcon) == FileName(stem, b, isIcon)
    ensures a == b
  {
    var sa := NatToString(a);
    var sb := NatToString(b);
    if isIcon {
      IconDigitsEqual(stem + "-", sa, sb);
    } else {
      WidthDigitsEqual(stem + "-", sa, sb);
    }
    NatToStringInjective(a, b);
  }

  lemma IconDigitsEqual(p: string, sa: string, sb: string)
    requires p + sa + "x" + sa + ".webp" == p + sb + "x" + sb + ".webp"
    ensures sa == sb
  {
    var x := sa + "x" + sa + ".webp";
    var y := sb + "x" + sb + ".webp";
    assert p + sa + "x" + sa + ".webp" == p + x;
    assert p + sb + "x" + sb + ".webp" == p + y;
    assert x == (p + x)[|p|..];
    assert y == (p + y)[|p|..];
    assert |sa| == |sb|;
    assert sa == x[..|sa|];
    assert sb == y[..|sb|];
  }

  lemma WidthDigitsEqual(p: string, sa: string, sb: string)
    requires p + sa + "w.webp" == p + sb + "w.webp"
    ensures sa == sb
  {
    var x := sa + "w.webp";
    var y := sb + "w.webp";
    assert p + sa + "w.webp" == p + x;
    assert p + sb + "w.webp" == p + y;
    assert x == (p + x)[|p|..];
    assert y == (p + y)[|p|..];
    assert sa == x[..|x| - 6];
    assert sb == y[..|y| - 6];
  }

  /** Joining onto the same directory keeps distinct names distinct. */
  lemma PathJoinInjective(dir: string, a: string, b: string)
    requires PathJoin(dir, a) == PathJoin(dir, b)
    ensures a == b
  {
    if dir != "" && dir != "." {
      var p := dir + "/";
      assert a == (p + a)[|p|..];
      assert b == (p + b)[|p|..];
    }
  }

  /** No two records of a run write to the same file. */
  lemma PlanPathsDistinct(img: Image, outDir: string, isIcon: bool)
    requires img.width > 0
    ensures var plan := Plan(img, outDir, isIcon);
            forall k, l :: 0 <= k < l < |plan| ==> plan[k].path != plan[l].path && plan[k].filename != plan[l].filename
  {
    var plan := Plan(img, outDir, isIcon);
    PlanSelectsSizes(img, outDir, isIcon);
    forall k, l | 0 <= k < l < |plan|
      ensures plan[k].path != plan[l].path && plan[k].filename != plan[l].filename
    {
      assert SizesOf(plan)[k] < SizesOf(plan)[l];
      if plan[k].path == plan[l].path {
        PathJoinInjective(PathJoin(outDir, "resized"), plan[k].filename, plan[l].filename);
      }
      if plan[k].filename == plan[l].filename {
        FileNameInjective(img.stem, plan[k].size, plan[l].size, isIcon);
      }
    }
  }

  /** The truncated list is a prefix of the plan that stops at the first
      attempt that raises. */
  lemma TruncateStops(plan: seq<Variant>, failAt: Option<nat>)
    ensures var r := Truncate(plan, failAt);
            && |r| <= |plan| && r == plan[..|r|]
            && (forall j :: 0 <= j < |r| ==> !Raises(plan[j], j, failAt))
            && (|r| < |plan| ==> Raises(plan[|r|], |r|, failAt))
  {
    var stop := StopFrom(plan, failAt, 0);
    assert Truncate(plan, failAt) == plan[..stop];
  }

  /** Without a flat record only the library failure stops the run. */
  lemma TruncateWithoutFlat(plan: seq<Variant>, failAt: Option<nat>)
    requires forall k :: 0 <= k < |plan| ==> plan[k].height > 0
    ensures failAt.None? ==> Truncate(plan, failAt) == plan
    ensures failAt.Some? ==> |Truncate(plan, failAt)| == if failAt.value < |plan| then failAt.value else |plan|
  {
    var g := match failAt case None => |plan| case Some(k) => if k < |plan| then k else |plan|;
    TruncateAt(plan, failAt, g);
  }

  /** What a run returns is a prefix of the full plan: nothing when the
      source is missing; otherwise it stops at the first attempt that
      raises, either because the library fails there or because the
      record would be 0 pixels high. Every record returned is at least
      one pixel high. Without a flat record, that is the whole plan when
      nothing fails and exactly the first `k` records when attempt `k`
      fails. */
  lemma GeneratedRecords(sourceExists: bool, img: Image, outDir: string, isIcon: bool, failAt: Option<nat>)
    ensures var r := Generated(sourceExists, img, outDir, isIcon, failAt);
            forall v :: v in r ==> v.width == v.size && v.height > 0 && v.size in SizesFor(isIcon) && (isIcon || v.width <= img.width)
    ensures !sourceExists ==> Generated(sourceExists, img, outDir, isIcon, failAt) == []
    ensures sourceExists && img.width > 0 ==>
      var plan := Plan(img, outDir, isIcon);
      var r := Generated(sourceExists, img, outDir, isIcon, failAt);
      && |r| <= |plan| && r == plan[..|r|]
      && (forall j :: 0 <= j < |r| ==> failAt != Some(j))
      && (|r| < |plan| ==> failAt == Some(|r|) || plan[|r|].height == 0)
      && ((forall k :: 0 <= k < |plan| ==> plan[k].height > 0) ==>
            && (failAt.None? ==> r == plan)
            && (failAt.Some? ==> |r| == if failAt.value < |plan| then failAt.value else |plan|))
  {
    if sourceExists && img.width > 0 {
      TruncatedFields(img, outDir, isIcon, failAt);
      TruncatedStops(img, outDir, isIcon, failAt);
    }
  }

  lemma TruncatedFields(img: Image, outDir: string, isIcon: bool, failAt: Option<nat>)
    requires img.width > 0
    ensures forall v :: v in Truncate(Plan(img, outDir, isIcon), failAt) ==>
      v.width == v.size && v.height > 0 && v.size in SizesFor(isIcon) && (isIcon || v.width <= img.width)
  {
    var plan := Plan(img, outDir, isIcon);
    var r := Truncate(plan, failAt);
    TruncateStops(plan, failAt);
    PlanSelectsSizes(img, outDir, isIcon);
    forall v | v in r
      ensures v.width == v.size && v.height > 0 && v.size in SizesFor(isIcon) && (isIcon || v.width <= img.width)
    {
      var k :| 0 <= k < |r| && r[k] == v;
      assert v == plan[k];
      assert !Raises(plan[k], k, failAt);
      assert v.size == SizesOf(plan)[k];
    }
  }

  lemma TruncatedStops(img: Image, outDir: string, isIcon: bool, failAt: Option<nat>)
    requires img.width > 0
    ensures var plan := Plan(img, outDir, isIcon);
      var r := Truncate(plan, failAt);
      && |r| <= |plan| && r == plan[..|r|]
      && (forall j :: 0 <= j < |r| ==> failAt != Some(j))
      && (|r| < |plan| ==> failAt == Some(|r|) || plan[|r|].height == 0)
      && ((forall k :: 0 <= k < |plan| ==> plan[k].height > 0) ==>
            && (failAt.None? ==> r == plan)
            && (failAt.Some? ==> |r| == if failAt.value < |plan| then failAt.value else |plan|))
  {
    var plan := Plan(img, outDir, isIcon);
    var r := Truncate(plan, failAt);
    TruncateStops(plan, failAt);
    forall j | 0 <= j < |r|
      ensures failAt != Some(j)
    {
      assert !Raises(plan[j], j, failAt);
    }
    if forall k :: 0 <= k < |plan| ==> plan[k].height > 0 {
      TruncateWithoutFlat(plan, failAt);
    }
  }

  /** Heights grow with the size. */
  lemma HeightMono(originalWidth: nat, originalHeight: nat, a: nat, b: nat)
    requires originalWidth > 0 && a <= b
    ensures Height(originalWidth, originalHeight, a) <= Height(originalWidth, originalHeight, b)
  {
    var ha, hb := Height(originalWidth, originalHeight, a), Height(originalWidth, originalHeight, b);
    MulMono(a, b, originalHeight);
    if ha > hb {
      MulMono(hb + 1, ha, originalWidth);
    }
  }

  /** The first record of a plan is the least high. */
  lemma PlanHeightsGrow(img: Image, outDir: string, isIcon: bool)
    requires img.width > 0
    ensures var plan := Plan(img, outDir, isIcon);
            forall k :: 0 <= k < |plan| ==> plan[0].height <= plan[k].height
  {
    var plan := Plan(img, outDir, isIcon);
    var kept := Attempted(SizesFor(isIcon), img.width, isIcon);
    SizeListsIncreasing(isIcon);
    AttemptedMembers(SizesFor(isIcon), img.width, isIcon);
    forall k | 0 <= k < |plan|
      ensures plan[0].height <= plan[k].height
    {
      assert plan[0] == MakeVariant(img, outDir, isIcon, kept[0]);
      assert plan[k] == MakeVariant(img, outDir, isIcon, kept[k]);
      assert kept[0] <= kept[k];
      HeightMono(img.width, img.height, kept[0], kept[k]);
    }
  }

  /** Only the smallest attempted size can come out 0 pixels high: a
      source too flat for it yields no record at all, and otherwise no
      attempt is rejected for its height. */
  lemma FlatOnlyFirst(sourceExists: bool, img: Image, outDir: string, isIcon: bool, failAt: Option<nat>)
    requires img.width > 0
    ensures var plan := Plan(img, outDir, isIcon);
            |plan| > 0 && plan[0].height > 0 ==> forall k :: 0 <= k < |plan| ==> plan[k].height > 0
    ensures var plan := Plan(img, outDir, isIcon);
            |plan| > 0 && plan[0].height == 0 ==> Generated(sourceExists, img, outDir, isIcon, failAt) == []
  {
    var plan := Plan(img, outDir, isIcon);
    PlanHeightsGrow(img, outDir, isIcon);
    if |plan| > 0 && plan[0].height == 0 && sourceExists {
      TruncateAt(plan, failAt, 0);
    }
  }

  /** A 2000x5 regular source is too flat for its smallest width: 180
      pixels wide would be 0 pixels high, so the run returns no record. */
  lemma FlatExample(img: Image, outDir: string, failAt: Option<nat>)
    requires img.width == 2000 && img.height == 5
    ensures Generated(true, img, outDir, false, failAt) == []
  {
    var kept := FlatFirstSize(img.width);
    var plan := Plan(img, outDir, false);
    assert plan == Variants(img, outDir, false, kept);
    assert plan[0].height == Height(2000, 5, 180);
    FlatOnlyFirst(true, img, outDir, false, failAt);
  }

  /** A 2000-wide regular source attempts 180 first. */
  lemma FlatFirstSize(width: nat) returns (kept: seq<nat>)
    requires width == 2000
    ensures kept == Attempted(ResponsiveSizes, width, false)
    ensures |kept| > 0 && kept[0] == 180
  {
    kept := Attempted(ResponsiveSizes, width, false);
    AttemptedPrefix(ResponsiveSizes, width, false, 1);
    assert ResponsiveSizes[..1] == [180];
    assert Attempted([180], width, false) == [180];
  }

  /** A 1920x1080 regular source: nine widths up to 1920 and never 2560,
      among them 640x360, 1280x720 and 1920x1080. */
  lemma LandscapeExample(img: Image, outDir: string)
    requires img.width == 1920 && img.height == 1080
    ensures var plan := Plan(img, outDir, false);
            SizesOf(plan) == [180, 320, 480, 640, 768, 1024, 1280, 1536, 1920]
            && plan[3].height == 360 && plan[6].height == 720 && plan[8].height == 1080
            && plan[3].filename == img.stem + "-640w.webp"
  {
    var kept := LandscapeSizes(img.width);
    var plan := Plan(img, outDir, false);
    assert plan == Variants(img, outDir, false, kept);
    PlanSizes(img, outDir, false);
    LandscapeRecord(img, outDir, kept, 3, 360);
    LandscapeRecord(img, outDir, kept, 6, 720);
    LandscapeRecord(img, outDir, kept, 8, 1080);
    FileName640(img.stem);
  }

  /** The record at position `k` of the 1920x1080 plan is `h` pixels high. */
  lemma LandscapeRecord(img: Image, outDir: string, kept: seq<nat>, k: nat, h: nat)
    requires img.width == 1920 && img.height == 1080
    requires 0 <= k < |kept| && h * 1920 == 1080 * kept[k]
    ensures Variants(img, outDir, false, kept)[k].height == h
  {
    var v := Variants(img, outDir, false, kept)[k];
    assert v.height == Height(1920, 1080, kept[k]);
    assert h * 1920 <= 1080 * kept[k] < (h + 1) * 1920;
  }

  /** The widths a 1920-wide regular source is resized to. */
  lemma LandscapeSizes(width: nat) returns (kept: seq<nat>)
    requires width == 1920
    ensures kept == Attempted(ResponsiveSizes, width, false)
    ensures kept == [180, 320, 480, 640, 768, 1024, 1280, 1536, 1920]
  {
    var sizes := ResponsiveSizes;
    var front := sizes[..9];
    assert front == [180, 320, 480, 640, 768, 1024, 1280, 1536, 1920];
    AttemptedAll(front, width, false);
    AttemptedSnoc(sizes, width, false, 9);
    assert sizes[..10] == sizes;
    kept := front;
  }

  lemma FileName640(stem: string)
    ensures FileName(stem, 640, false) == stem + "-640w.webp"
  {
    assert NatToString(640) == "640" by {
      assert NatToString(64) == "64";
    }
  }
}

=== FILE: resize_main.dfy ===
/** The driver `main` of generate-image.py: for each configured directory,
    choose the source path, run the resizer in the directory's mode,
    decide whether to copy the original into the directory, and collect
    the results that go into the manifest. The disk is an input: which
    paths exist, the pixel size of each decodable image and where its
    processing fails. */
module ResizeMain {
  import opened Wrappers
  import opened Text
  import opened Resize

  /** One row of the directory table: target directory and source file. */
  datatype SourceEntry = SourceEntry(dir: string, sourceFile: string)

  /** The one directory processed in icon mode. */
  const IconDirectory: string := "dvipicon"

  /** The directory table, in processing order. */
  const Directories: seq<SourceEntry> := [
    SourceEntry("dvip1", "dvip1.webp"),
    SourceEntry("dvip2", "dvip2.webp"),
    SourceEntry("dvip3", "dvip3.webp"),
    SourceEntry("dvip4", "dvip4.webp"),
    SourceEntry("dvipicon", "dvipicon512.webp")
  ]

  /** What a run sees of the disk. `dims` gives (width, height) of every
      path the image library can open; `failures` the attempt at which
      processing that image raises, if it does. */
  datatype Disk = Disk(files: set<string>, dims: map<string, (nat, nat)>, failures: map<string, nat>)

  /** What `main` records for one directory. */
  datatype DirResult = DirResult(dir: string, isIcon: bool, sourcePath: string, generated: seq<Variant>, copiedOriginal: bool)

  /** Truth value of a `pathlib.Path` object in an `elif`: a path defines
      neither `__bool__` nor `__len__`, so every path is true. */
  predicate PathIsTrue(p: string) {
    true
  }

  /** The source path for a directory: the root-level file if it exists,
      otherwise the file of the same name inside the directory. The third
      branch ("Source not found") can never be taken. */
  function SelectSource(files: set<string>, e: SourceEntry): (source: Option<string>)
    ensures source.Some?
    ensures e.sourceFile in files ==> source.value == e.sourceFile
    ensures e.sourceFile !in files ==> LastComponent(source.value) == LastComponent(e.sourceFile)
  {
    var inDir := PathJoin(e.dir, LastComponent(e.sourceFile));
    LastComponentOfJoin(e.dir, LastComponent(e.sourceFile));
    if e.sourceFile in files then Some(e.sourceFile)
    else if PathIsTrue(inDir) then Some(inDir)
    else None
  }

  /** The decoded image at `source`, and the attempt at which processing
      it fails. A path the library cannot open fails before any record. */
  function Load(disk: Disk, source: string): (loaded: (Image, Option<nat>))
    ensures loaded.0.stem == Stem(source)
    ensures source in disk.dims ==> (loaded.0.width, loaded.0.height) == disk.dims[source]
    ensures source !in disk.dims ==> loaded.1 == Some(0)
  {
    if source !in disk.dims then (Image(0, 0, Stem(source)), Some(0))
    else
      var (w, h) := disk.dims[source];
      (Image(w, h, Stem(source)), if source in disk.failures then Some(disk.failures[source]) else None)
  }

  /** The original is copied into the directory when it exists at the
      root and the directory does not already hold a file of its name. */
  predicate CopiesOriginal(files: set<string>, e: SourceEntry) {
    e.sourceFile in files && PathJoin(e.dir, LastComponent(e.sourceFile)) !in files
  }

  /** Where `shutil.copy2(source_file, dir_name)` puts the copy when the
      directory exists: inside it, under the file's own name. */
  function CopyTarget(e: SourceEntry): string {
    PathJoin(e.dir, LastComponent(e.sourceFile))
  }

  /** The copy is made at most once: once the file sits in the (existing)
      directory, a later run does not copy again. */
  lemma CopyIsIdempotent(files: set<string>, e: SourceEntry)
    ensures !CopiesOriginal(files + {CopyTarget(e)}, e)
  {
  }

  /** Without the root file, the source is read from exactly where the
      copy was put into the (existing) directory. */
  lemma CopyServesLaterRuns(files: set<string>, e: SourceEntry)
    requires e.sourceFile !in files
    ensures SelectSource(files, e).value == CopyTarget(e)
  {
  }

  /** A copy is made only when the root file exists, and then the source
      is the root file; the (existing) directory's copy then holds a file of the same
      name, so a second run selects the same name from either place. */
  lemma CopiedNameMatches(files: set<string>, e: SourceEntry)
    requires CopiesOriginal(files, e)
    ensures LastComponent(CopyTarget(e)) == LastComponent(SelectSource(files, e).value)
  {
    LastComponentOfJoin(e.dir, LastComponent(e.sourceFile));
    assert LastComponent(LastComponent(e.sourceFile)) == LastComponent(e.sourceFile);
  }

  function ProcessDirectory(disk: Disk, e: SourceEntry, source: string): DirResult {
    var isIcon := e.dir == IconDirectory;
    var (img, failAt) := Load(disk, source);
    DirResult(e.dir, isIcon, source, Generated(source in disk.files, img, e.dir, isIcon, failAt), CopiesOriginal(disk.files, e))
  }

  /** The loop of `main` over a list of directory entries. */
  function RunEntries(disk: Disk, entries: seq<SourceEntry>): seq<DirResult>
    decreases |entries|
  {
    if |entries| == 0 then []
    else
      var rest := RunEntries(disk, entries[1..]);
      match SelectSource(disk.files, entries[0])
      case None => rest
      case Some(source) => [ProcessDirectory(disk, entries[0], source)] + rest
  }

  function Run(disk: Disk): seq<DirResult> {
    RunEntries(disk, Directories)
  }

  /** The `generated` part of the manifest: directory name to records. */
  function Manifest(results: seq<DirResult>): map<string, seq<Variant>>
    decreases |results|
  {
    if |results| == 0 then map[]
    else Manifest(results[..|results| - 1])[results[|results| - 1].dir := results[|results| - 1].generated]
  }

  /** The result `main` records for one entry. */
  function Outcome(disk: Disk, e: SourceEntry): DirResult {
    ProcessDirectory(disk, e, SelectSource(disk.files, e).value)
  }

  /** One step of the loop: the first entry is processed, never skipped. */
  lemma RunEntriesCons(disk: Disk, entries: seq<SourceEntry>)
    requires |entries| > 0
    ensures RunEntries(disk, entries) == [Outcome(disk, entries[0])] + RunEntries(disk, entries[1..])
  {
  }

  /** `f` applied to every element, in order. */
  function MapSeq<A, B>(f: A -> B, xs: seq<A>): (ys: seq<B>)
    ensures |ys| == |xs|
    ensures forall k :: 0 <= k < |xs| ==> ys[k] == f(xs[k])
  {
    seq(|xs|, k requires 0 <= k < |xs| => f(xs[k]))
  }

  lemma MapSeqCons<A, B>(f: A -> B, xs: seq<A>)
    requires |xs| > 0
    ensures MapSeq(f, xs) == [f(xs[0])] + MapSeq(f, xs[1..])
  {
    var ys, tail := MapSeq(f, xs), MapSeq(f, xs[1..]);
    forall k | 1 <= k < |xs|
      ensures ys[k] == tail[k - 1]
    {
      assert xs[1..][k - 1] == xs[k];
    }
  }

  /** Reference definition: every entry processed, in order. */
  function Outcomes(disk: Disk, entries: seq<SourceEntry>): (rs: seq<DirResult>)
    ensures |rs| == |entries|
    ensures forall k :: 0 <= k < |entries| ==> rs[k] == Outcome(disk, entries[k])
  {
    MapSeq(e => Outcome(disk, e), entries)
  }

  lemma OutcomesCons(disk: Disk, entries: seq<SourceEntry>)
    requires |entries| > 0
    ensures Outcomes(disk, entries) == [Outcome(disk, entries[0])] + Outcomes(disk, entries[1..])
  {
    MapSeqCons(e => Outcome(disk, e), entries);
  }

  /** No entry is ever skipped: the run has one result per entry, in order,
      each processed from the source path the selection gives. */
  lemma {:induction false} RunEntriesCoversAll(disk: Disk, entries: seq<SourceEntry>)
    ensures RunEntries(disk, entries) == Outcomes(disk, entries)
    decreases |entries|
  {
    if |entries| > 0 {
      RunEntriesCoversAll(disk, entries[1..]);
      RunEntriesCons(disk, entries);
      OutcomesCons(disk, entries);
    }
  }

  /** Every configured directory gets a result, in table order, and only
      `dvipicon` is processed in icon mode. */
  lemma RunCoversDirectories(disk: Disk)
    ensures |Run(disk)| == |Directories| == 5
    ensures forall k :: 0 <= k < 5 ==> Run(disk)[k].dir == Directories[k].dir
    ensures forall k :: 0 <= k < 5 ==> (Run(disk)[k].isIcon <==> k == 4)
  {
    RunEntriesCoversAll(disk, Directories);
    IconDirectoryIsLast();
  }

  lemma IconDirectoryIsLast()
    ensures forall k :: 0 <= k < |Directories| ==> (Directories[k].dir == IconDirectory <==> k == 4)
  {
  }

  /** Per directory: the root file is preferred; a missing source yields no
      records; the records are a prefix of the plan for the loaded image;
      the copy happens exactly when the original exists only at the root. */
  lemma RunResults(disk: Disk)
    ensures forall k :: 0 <= k < |Run(disk)| ==>
      var r := Run(disk)[k];
      var e := Directories[k];
      && (e.sourceFile in disk.files ==> r.sourcePath == e.sourceFile)
      && (e.sourceFile !in disk.files ==> r.sourcePath == e.dir + "/" + e.sourceFile)
      && (r.sourcePath !in disk.files ==> r.generated == [])
      && (r.copiedOriginal <==> e.sourceFile in disk.files && e.dir + "/" + e.sourceFile !in disk.files)
      && (forall v :: v in r.generated ==> v.width == v.size && v.size in SizesFor(r.isIcon) && (r.isIcon || v.width <= Load(disk, r.sourcePath).0.width))
  {
    RunEntriesCoversAll(disk, Directories);
    forall k | 0 <= k < |Run(disk)|
      ensures var r := Run(disk)[k];
              var e := Directories[k];
              && (e.sourceFile in disk.files ==> r.sourcePath == e.sourceFile)
              && (e.sourceFile !in disk.files ==> r.sourcePath == e.dir + "/" + e.sourceFile)
              && (r.sourcePath !in disk.files ==> r.generated == [])
              && (r.copiedOriginal <==> e.sourceFile in disk.files && e.dir + "/" + e.sourceFile !in disk.files)
              && (forall v :: v in r.generated ==> v.width == v.size && v.size in SizesFor(r.isIcon) && (r.isIcon || v.width <= Load(disk, r.sourcePath).0.width))
    {
      var e := Directories[k];
      ConfiguredNames(k);
      var r := Run(disk)[k];
      var (img, failAt) := Load(disk, r.sourcePath);
      GeneratedRecords(r.sourcePath in disk.files, img, e.dir, r.isIcon, failAt);
    }
  }

  /** Every configured source is a plain `*.webp` name, and each directory
      name is a plain name. */
  lemma ConfiguredNames(k: nat)
    requires k < |Directories|
    ensures var e := Directories[k];
            e.dir != "" && e.dir != "." && '/' !in e.sourceFile && LastComponent(e.sourceFile) == e.sourceFile
  {
  }

  /** Whichever path is chosen, the image's stem is the configured base name. */
  lemma SelectedStem(files: set<string>, e: SourceEntry, base: string, ext: string)
    requires e.sourceFile == base + ext && |base| > 0 && '/' !in base && IsExtension(ext)
    ensures Stem(SelectSource(files, e).value) == base
  {
    StemWithExtension("", base, ext);
    StemWithExtension(e.dir, base, ext);
    NameWithExtension(base, ext);
  }

  function BaseNames(): seq<string> {
    ["dvip1", "dvip2", "dvip3", "dvip4", "dvipicon512"]
  }

  lemma ConfiguredSources()
    ensures forall k :: 0 <= k < 5 ==> Directories[k].sourceFile == BaseNames()[k] + ".webp"
    ensures forall k :: 0 <= k < 5 ==> |BaseNames()[k]| > 0 && '/' !in BaseNames()[k]
  {
  }

  /** The resized files of each directory are named after its source:
      `dvip1` ... `dvip4` and `dvipicon512`. */
  lemma RunStems(disk: Disk)
    ensures forall k :: 0 <= k < |Run(disk)| ==> Stem(Run(disk)[k].sourcePath) == BaseNames()[k]
  {
    RunEntriesCoversAll(disk, Directories);
    ConfiguredSources();
    forall k | 0 <= k < |Run(disk)|
      ensures Stem(Run(disk)[k].sourcePath) == BaseNames()[k]
    {
      WebpIsExtension();
      SelectedStem(disk.files, Directories[k], BaseNames()[k], ".webp");
    }
  }

  function DirsOf(results: seq<DirResult>): seq<string> {
    seq(|results|, k requires 0 <= k < |results| => results[k].dir)
  }

  /** The manifest has one key per result; when directory names are
      distinct, each maps to its own result's records. */
  lemma {:induction false} ManifestLookup(results: seq<DirResult>)
    ensures forall d :: d in Manifest(results) <==> d in DirsOf(results)
    ensures (forall k, l :: 0 <= k < l < |results| ==> results[k].dir != results[l].dir) ==>
              forall k :: 0 <= k < |results| ==>
                results[k].dir in Manifest(results) && Manifest(results)[results[k].dir] == results[k].generated
    decreases |results|
  {
    if |results| > 0 {
      var n := |results| - 1;
      var front := results[..n];
      ManifestLookup(front);
      assert DirsOf(results) == DirsOf(front) + [results[n].dir];
      if forall k, l :: 0 <= k < l < |results| ==> results[k].dir != results[l].dir {
        forall k | 0 <= k < |results|
          ensures results[k].dir in Manifest(results) && Manifest(results)[results[k].dir] == results[k].generated
        {
          if k < n {
            assert front[k] == results[k];
          }
        }
      }
    }
  }

  /** The manifest of a run has exactly the five configured directories,
      each with the records its own run produced. */
  lemma RunManifest(disk: Disk)
    ensures forall d :: d in Manifest(Run(disk)) <==> d in DirsOf(Run(disk))
    ensures DirsOf(Run(disk)) == DirsOfTable()
    ensures forall k :: 0 <= k < 5 ==>
              Directories[k].dir in Manifest(Run(disk)) && Manifest(Run(disk))[Directories[k].dir] == Run(disk)[k].generated
  {
    var run := Run(disk);
    RunCoversDirectories(disk);
    DirectoryNamesDistinct();
    assert DirsOf(run) == DirsOfTable() by {
      forall k | 0 <= k < 5
        ensures DirsOf(run)[k] == DirsOfTable()[k]
      {
      }
    }
    assert forall k, l :: 0 <= k < l < |run| ==> run[k].dir != run[l].dir by {
      forall k, l | 0 <= k < l < |run|
        ensures run[k].dir != run[l].dir
      {
        assert run[k].dir == DirsOfTable()[k] && run[l].dir == DirsOfTable()[l];
      }
    }
    ManifestLookup(run);
  }

  /** The directory names of the table, in table order. */
  function DirsOfTable(): seq<string> {
    seq(|Directories|, k requires 0 <= k < |Directories| => Directories[k].dir)
  }

  /** The table names `dvip1` ... `dvip4` and `dvipicon`, each once. */
  lemma DirectoryNamesDistinct()
    ensures DirsOfTable() == ["dvip1", "dvip2", "dvip3", "dvip4", "dvipicon"]
    ensures forall k :: 0 <= k < 5 ==> Directories[k].dir == DirsOfTable()[k]
    ensures forall k, l :: 0 <= k < l < 5 ==> DirsOfTable()[k] != DirsOfTable()[l]
  {
    var names := DirsOfTable();
    assert |names| == 5;
    assert names[0] == "dvip1" && names[1] == "dvip2" && names[2] == "dvip3";
    assert names[3] == "dvip4" && names[4] == "dvipicon";
  }
}

=== FILE: text.dfy ===
/** String helpers the two scripts get from Python itself: decimal rendering
    of integers in f-strings, `', '.join`, `str.split('/')[-1]`, and the
    `pathlib` operations `/`, `.name` and `.stem`. */
module Text {

  predicate IsDigit(c: char) {
    '0' <= c <= '9'
  }

  predicate AllDigits(s: string) {
    forall i :: 0 <= i < |s| ==> IsDigit(s[i])
  }

  function DigitChar(d: nat): (c: char)
    requires d < 10
    ensures IsDigit(c)
  {
    (48 + d) as char
  }

  function DigitValue(c: char): (d: nat)
    requires IsDigit(c)
    ensures d < 10
  {
    (c as int) - 48
  }

  /** Decimal text of `n`, as `f"{n}"` renders a non-negative int. */
  function NatToString(n: nat): (s: string)
    ensures |s| >= 1 && AllDigits(s)
    ensures s[0] == '0' ==> n == 0
    decreases n
  {
    if n < 10 then [DigitChar(n)]
    else NatToString(n / 10) + [DigitChar(n % 10)]
  }

  /** Reads a decimal digit string back into its value: the partner of NatToString. */
  function ParseDecimal(s: string): nat
    requires AllDigits(s)
    decreases |s|
  {
    if |s| == 0 then 0
    else 10 * ParseDecimal(s[..|s| - 1]) + DigitValue(s[|s| - 1])
  }

  lemma {:induction false} ParseNatToString(n: nat)
    ensures ParseDecimal(NatToString(n)) == n
    decreases n
  {
    if n >= 10 {
      var s := NatToString(n / 10);
      var t := s + [DigitChar(n % 10)];
      assert t[..|t| - 1] == s;
      ParseNatToString(n / 10);
    }
  }

  /** Distinct numbers render to distinct texts. */
  lemma NatToStringInjective(a: nat, b: nat)
    ensures NatToString(a) == NatToString(b) ==> a == b
  {
    ParseNatToString(a);
    ParseNatToString(b);
  }

  /** `', '.join(parts)`. */
  function Join(parts: seq<string>): string
    decreases |parts|
  {
    if |parts| == 0 then ""
    else if |parts| == 1 then parts[0]
    else parts[0] + ", " + Join(parts[1..])
  }

  /** `s.split(", ")`: the partner of Join. An occurrence of the separator
      at the front ends the first part; otherwise the first character
      belongs to the first part. Two occurrences of ", " cannot overlap,
      so this is the left-to-right split Python performs. */
  function SplitList(s: string): (parts: seq<string>)
    ensures |parts| >= 1
    decreases |s|
  {
    if |s| < 2 then [s]
    else if s[0] == ',' && s[1] == ' ' then [""] + SplitList(s[2..])
    else
      var rest := SplitList(s[1..]);
      [[s[0]] + rest[0]] + rest[1..]
  }

  /** Splitting puts back nothing but separators: joining the parts of any
      string with ", " gives the string. */
  lemma {:induction false} JoinSplit(s: string)
    ensures Join(SplitList(s)) == s
    decreases |s|
  {
    if |s| >= 2 {
      if s[0] == ',' && s[1] == ' ' {
        JoinSplit(s[2..]);
        assert s == ", " + s[2..];
      } else {
        var rest := SplitList(s[1..]);
        JoinSplit(s[1..]);
        assert s == [s[0]] + s[1..];
        if |rest| > 1 {
          assert Join(rest) == rest[0] + ", " + Join(rest[1..]);
          assert SplitList(s)[1..] == rest[1..];
        }
      }
    }
  }

  /** A part without a comma is split off whole. */
  lemma {:induction false} SplitListPrefix(p: string, rest: string)
    requires ',' !in p
    ensures SplitList(p + ", " + rest) == [p] + SplitList(rest)
    decreases |p|
  {
    var s := p + ", " + rest;
    if |p| == 0 {
      assert s == ", " + rest;
      assert s[2..] == rest;
    } else {
      assert s[1..] == p[1..] + ", " + rest;
      assert p[0] != ',' by { assert p[0] in p; }
      SplitListPrefix(p[1..], rest);
      assert [p[0]] + p[1..] == p;
    }
  }

  /** A string without a comma is a single part. */
  lemma {:induction false} SplitListSingle(p: string)
    requires ',' !in p
    ensures SplitList(p) == [p]
    decreases |p|
  {
    if |p| >= 2 {
      assert p[0] != ',' by { assert p[0] in p; }
      SplitListSingle(p[1..]);
      assert [p[0]] + p[1..] == p;
    }
  }

  /** Joining parts that contain no comma and splitting again gives the parts back. */
  lemma {:induction false} SplitJoin(parts: seq<string>)
    requires |parts| >= 1
    requires forall k :: 0 <= k < |parts| ==> ',' !in parts[k]
    ensures SplitList(Join(parts)) == parts
    decreases |parts|
  {
    if |parts| == 1 {
      SplitListSingle(parts[0]);
    } else {
      SplitListPrefix(parts[0], Join(parts[1..]));
      SplitJoin(parts[1..]);
      assert parts == [parts[0]] + parts[1..];
    }
  }

  /** Lines joined with newline characters, as a multi-line string literal lays them out. */
  function JoinLines(lines: seq<string>): string
    decreases |lines|
  {
    if |lines| == 0 then ""
    else if |lines| == 1 then lines[0]
    else lines[0] + "\n" + JoinLines(lines[1..])
  }

  /** `s.split('\n')`, the partner of JoinLines; it reads a multi-line text back. */
  function SplitLines(s: string): (lines: seq<string>)
    ensures |lines| >= 1
    decreases |s|
  {
    if |s| == 0 then [s]
    else if s[0] == '\n' then [""] + SplitLines(s[1..])
    else
      var rest := SplitLines(s[1..]);
      [[s[0]] + rest[0]] + rest[1..]
  }

  /** A line without a newline is split off whole. */
  lemma {:induction false} SplitLinesPrefix(p: string, rest: string)
    requires '\n' !in p
    ensures SplitLines(p + "\n" + rest) == [p] + SplitLines(rest)
    decreases |p|
  {
    var s := p + "\n" + rest;
    if |p| == 0 {
      assert s == "\n" + rest;
      assert s[1..] == rest;
    } else {
      assert s[1..] == p[1..] + "\n" + rest;
      assert p[0] != '\n' by { assert p[0] in p; }
      SplitLinesPrefix(p[1..], rest);
      assert [p[0]] + p[1..] == p;
    }
  }

  /** A text without a newline is a single line. */
  lemma {:induction false} SplitLinesSingle(p: string)
    requires '\n' !in p
    ensures SplitLines(p) == [p]
    decreases |p|
  {
    if |p| >= 1 {
      assert p[0] != '\n' by { assert p[0] in p; }
      SplitLinesSingle(p[1..]);
      assert [p[0]] + p[1..] == p;
    }
  }

  /** Joining lines that hold no newline and splitting again gives the lines back. */
  lemma {:induction false} SplitJoinLines(lines: seq<string>)
    requires |lines| >= 1
    requires forall k :: 0 <= k < |lines| ==> '\n' !in lines[k]
    ensures SplitLines(JoinLines(lines)) == lines
    decreases |lines|
  {
    if |lines| == 1 {
      SplitLinesSingle(lines[0]);
    } else {
      SplitLinesPrefix(lines[0], JoinLines(lines[1..]));
      SplitJoinLines(lines[1..]);
      assert lines == [lines[0]] + lines[1..];
    }
  }

  /** `str(Path(dir) / name)` for a relative `dir` written without a trailing
      separator and a relative `name`. */
  function PathJoin(dir: string, name: string): string {
    if dir == "" || dir == "." then name else dir + "/" + name
  }

  /** `s.split('/')[-1]`, which is also `Path(s).name` for a path without a
      trailing separator and without a `.` component (`Path('.').name` is
      empty). */
  function LastComponent(s: string): (r: string)
    ensures '/' !in r
    ensures |r| <= |s| && r == s[|s| - |r|..]
    ensures '/' !in s ==> r == s
    decreases |s|
  {
    if |s| == 0 then ""
    else if s[|s| - 1] == '/' then ""
    else
      var r := LastComponent(s[..|s| - 1]) + [s[|s| - 1]];
      assert s == s[..|s| - 1] + [s[|s| - 1]];
      r
  }

  /** The final component of `dir/name` is `name`. */
  lemma {:induction false} LastComponentOfJoin(dir: string, name: string)
    requires '/' !in name
    ensures LastComponent(PathJoin(dir, name)) == name
  {
    if dir != "" && dir != "." {
      var p := dir + "/" + name;
      var r := LastComponent(p);
      assert p[|p| - |name|..] == name;
      assert p[|p| - |name| - 1] == '/';
      LastComponentStopsAtSeparator(p, |name|);
      assert |r| == |name|;
    }
  }

  /** The last component reaches back to the nearest separator. */
  lemma {:induction false} LastComponentStopsAtSeparator(s: string, n: nat)
    requires n <= |s|
    requires '/' !in s[|s| - n..]
    ensures |LastComponent(s)| >= n
    decreases |s|
  {
    if n > 0 {
      assert s[|s| - 1] == s[|s| - n..][n - 1];
      var t := s[..|s| - 1];
      forall k | |t| - (n - 1) <= k < |t|
        ensures t[k] != '/'
      {
        assert t[k] == s[|s| - n..][k - (|s| - n)];
      }
      LastComponentStopsAtSeparator(t, n - 1);
    }
  }

  /** Index of the last occurrence of `c` in `s`, or -1 (`str.rfind`). */
  function LastIndexOf(s: string, c: char): (i: int)
    ensures -1 <= i < |s|
    ensures i >= 0 ==> s[i] == c && c !in s[i + 1..]
    ensures i == -1 ==> c !in s
    decreases |s|
  {
    if |s| == 0 then -1
    else if s[|s| - 1] == c then |s| - 1
    else
      var j := LastIndexOf(s[..|s| - 1], c);
      LastIndexOfStep(s, c, j);
      j
  }

  /** A last character other than `c` changes neither occurrence fact. */
  lemma LastIndexOfStep(s: string, c: char, j: int)
    requires |s| > 0 && s[|s| - 1] != c && -1 <= j < |s| - 1
    requires j >= 0 ==> s[..|s| - 1][j] == c && c !in s[..|s| - 1][j + 1..]
    requires j == -1 ==> c !in s[..|s| - 1]
    ensures j >= 0 ==> s[j] == c && c !in s[j + 1..]
    ensures j == -1 ==> c !in s
  {
    var t := s[..|s| - 1];
    assert s == t + [s[|s| - 1]];
    if j >= 0 {
      assert s[j + 1..] == t[j + 1..] + [s[|s| - 1]];
    }
  }

  /** The last occurrence is the one with no later occurrence. */
  lemma LastIndexOfUnique(s: string, c: char, k: nat)
    requires k < |s| && s[k] == c && c !in s[k + 1..]
    ensures LastIndexOf(s, c) == k
  {
  }

  /** `Path(p).stem`: the final component without its last suffix, where a
      leading dot or a trailing dot does not start a suffix. */
  function Stem(p: string): string {
    var name := LastComponent(p);
    var i := LastIndexOf(name, '.');
    if 0 < i < |name| - 1 then name[..i] else name
  }

  /** The stem is a prefix of the final component, so it holds no
      separator; a name without a dot is its own stem. */
  lemma StemOfName(p: string)
    ensures '/' !in Stem(p)
    ensures |Stem(p)| <= |LastComponent(p)| && Stem(p) == LastComponent(p)[..|Stem(p)|]
    ensures '.' !in LastComponent(p) ==> Stem(p) == LastComponent(p)
  {
  }

  /** `base` followed by a one-dot extension is a single component whose
      last dot starts the extension. */
  lemma NameWithExtension(base: string, ext: string)
    requires '/' !in base && '/' !in ext
    requires |ext| > 0 && ext[0] == '.' && '.' !in ext[1..]
    ensures '/' !in base + ext
    ensures LastIndexOf(base + ext, '.') == |base|
  {
    var name := base + ext;
    assert name[|base| + 1..] == ext[1..];
    LastIndexOfUnique(name, '.', |base|);
  }

  /** A suffix in pathlib's sense: one leading dot followed by at least
      one character, with no other dot and no separator. */
  predicate IsExtension(ext: string) {
    |ext| > 1 && ext[0] == '.' && '.' !in ext[1..] && '/' !in ext
  }

  lemma WebpIsExtension()
    ensures IsExtension(".webp")
  {
  }

  /** The stem of `dir/base.ext` is `base`. */
  lemma StemWithExtension(dir: string, base: string, ext: string)
    requires |base| > 0 && '/' !in base && IsExtension(ext)
    ensures Stem(PathJoin(dir, base + ext)) == base
  {
    var name := base + ext;
    var full := PathJoin(dir, name);
    NameWithExtension(base, ext);
    LastComponentOfJoin(dir, name);
    assert LastComponent(full) == name;
    assert LastIndexOf(name, '.') == |base|;
    assert 0 < |base| < |name| - 1;
    assert name[..|base|] == base;
  }

  /** The stem of `dir/base.webp` is `base`. */
  lemma StemOfWebp(dir: string, base: string)
    requires |base| > 0 && '/' !in base
    ensures Stem(PathJoin(dir, base + ".webp")) == base
  {
    WebpIsExtension();
    StemWithExtension(dir, base, ".webp");
  }
}

=== FILE: wrappers.dfy ===
/** Plain optional and outcome values used across the model. */
module Wrappers {

  /** An optional value: `None` stands for "absent". */
  datatype Option<+T> = None | Some(value: T)

  /** The outcome of an operation that may raise: `Failure` carries the
      exception the Python code would raise. */
  datatype Result<+R, +E> = Success(value: R) | Failure(error: E)
}
